=== FILE: README.md ===
# gitday core, modelled in Dafny

gitday is a command-line tool. It collects the commits of a day (or a week)
from every git repository under a few scan paths. It prints them as a
report in the terminal or as Markdown, and it can have an AI provider
summarise them. This project models the part of gitday that is pure logic:

- **GitLog** (`internal/git/log.go`). The parser of `git log --format=%H§§%s§§%an§§%aI --shortstat`
  output is modelled as a state machine over trimmed lines. It is proved
  equal to a reference definition that needs no state: one commit per
  header line, each with the count of the first statistics line that
  follows it before the next header. The hash truncation, the file-count
  reader and the result-assembly rule of `CollectLogs` are modelled too.
- **Scanner** (`internal/git/scanner.go`). `ScanRepos` runs over an
  abstract file system. Its result is proved to be the de-duplicated
  sequence of what each scan path contributes, in first-seen order.
  `shouldExclude`, `expandHome` and `isGitRepo` are modelled as well.
- **Report**, **Markdown**, **Terminal** (`internal/output`). `ToMarkdown`
  and `PrintReport` are modelled as sequences of structured lines. `Render`
  gives each line's text. The model covers the totals (64-bit `int`
  arithmetic), the sections and their bullets, the compact "+N more" cut,
  the header padding in bytes, the "(k files)" note and the Korean weekday
  names.
- **Provider** (`internal/ai`). It models the case-insensitive `NewProvider`
  dispatch, the default model and URL substitution of `NewClaude`,
  `NewOpenAI` and `NewOllama`, and the prompt `BuildPrompt` writes.

Supporting modules:
- **Text** models Go's `strings` functions over Unicode scalar values, with
  `Utf8Len` for byte lengths.
- **Numbers** models `strconv.Atoi`, `%d`, and 64-bit wrap-around.
- **Paths** models `filepath.Base`.
- **Seqs** holds sequence facts.
- **Wrappers** holds `Option` and `Result`.

The hash of a commit is cut to 7 bytes (`internal/git/log.go:127-132`),
not to 7 characters; on git's hexadecimal hashes the two agree. Excluded
names are compared exactly (`internal/git/scanner.go:66-70`); they are not
patterns. `CollectLogs` gathers its results in the order its goroutines
finish; the model reads the repositories one after the other and keeps
their input order.

## Model

| member | source | states |
|---|---|---|
| GitLog.ParseGitLog | internal/git/log.go:87-125 | parsing never reports an error, for every input |
| GitLog.ParseBlank | internal/git/log.go:89-96 | an empty or all-white-space log parses to no commits and no error |
| GitLog.ParseLinesIsReference | internal/git/log.go:92-122 | the line-by-line parser with its open-commit pointer returns exactly the commits of the stateless reference definition |
| GitLog.RunMatchesReference | internal/git/log.go:91-122 | from any state whose open commit has no count yet, reading the remaining lines yields the settled state followed by the reference commits of those lines |
| GitLog.StepMatchesReference | internal/git/log.go:92-121 | one line of any kind keeps that relation between the parser state and the reference, and keeps the open commit uncounted |
| GitLog.StepByKind | internal/git/log.go:94-121 | a header opens a new commit after the ones so far; a statistics line counts and closes the open commit, or does nothing when none is open; an empty line, a header with fewer than four fields, or another line leaves the state unchanged |
| GitLog.ReferenceHeaders | internal/git/log.go:99-113 | there is one commit per header line, in order, and the commit's hash, message, author and date come from that header's fields |
| GitLog.ReferenceSuffix | internal/git/log.go:99-113 | the commits of lines that follow a prefix come after one commit per header of the prefix |
| GitLog.NoStatsMeansZero | internal/git/log.go:106-121 | a commit with no statistics line before the next header or the end of input keeps a file count of 0 |
| GitLog.HeaderWithoutStats | internal/git/log.go:106-121 | the same for the first commit of the lines |
| GitLog.StatsOfSkips | internal/git/log.go:92-121 | lines that are neither headers nor statistics do not affect which statistics line a commit gets |
| GitLog.InertLineIgnored | internal/git/log.go:94-121 | inserting a line that is neither a header nor a statistics line anywhere leaves the parse unchanged; this includes a malformed header, which does not close the open commit |
| GitLog.StatsCloses | internal/git/log.go:118-121 | a statistics line gives the open commit its count and leaves no commit open |
| GitLog.UnclaimedStatsIgnored | internal/git/log.go:118-121 | a statistics line read while no commit is open is ignored |
| GitLog.SecondStatsIgnored | internal/git/log.go:118-121 | a second statistics line right after the first one is ignored: a commit takes at most one |
| GitLog.Step | internal/git/log.go:92-121 | reading a line never drops a commit already read; a header adds exactly one commit and leaves it open, and any other line adds none |
| GitLog.Run | internal/git/log.go:92-122 | reading lines keeps the commits read before them and adds one commit per header line among them |
| GitLog.LogLines | internal/git/log.go:89-93 | the log is cut into at least one line, and no line starts or ends with white space; an empty or all-white-space log gives one empty line |
| GitLog.LogLinesOfOutput | internal/git/log.go:89-93 | lines with no white space at their ends and no newline inside, the first and last not empty, written one per line with a final newline, are read back exactly |
| GitLog.ParseGitLogIsReference | internal/git/log.go:87-125 | the parse of any output is the reference reading of its trimmed lines |
| GitLog.ParseGitLogOfOutput | internal/git/log.go:87-125 | output written as such lines parses to one commit per header line of them, each with the count of its statistics line |
| GitLog.RunAppend | internal/git/log.go:92-122 | reading two runs of lines one after the other is reading their concatenation |
| GitLog.FromFields | internal/git/log.go:105-111 | the hash is the longest prefix of field 0 of at most 7 bytes, so all of field 0 when it fits; message, author and date are fields 1 to 3 unchanged; the file count starts at 0 |
| GitLog.Truncate | internal/git/log.go:127-132 | the result is a prefix of `s` of at most `n` bytes, all of `s` when it fits, and the longest such prefix |
| GitLog.TruncateAscii | internal/git/log.go:127-132 | on ASCII text the result is the first `min(n, len)` characters |
| GitLog.ParseFileCount | internal/git/log.go:134-143 | the count is a 64-bit integer and is 0 for a line with no field |
| GitLog.ParseFileCountOfWord | internal/git/log.go:134-143 | a line whose first field is `w` gets the integer value of `w`, or 0 when `w` is not an integer |
| GitLog.ParseFileCountOfPrinted | internal/git/log.go:134-143 | the count git prints before " file" is read back exactly |
| GitLog.RepoCommits | internal/git/log.go:79-84 | getCommits fails exactly when running git fails, with git's error; otherwise it returns the reference commits of the trimmed lines of git's output |
| GitLog.CollectLogs | internal/git/log.go:41-57 | no error is reported; every result comes from an input repository whose commits were read and are not empty; the result holds those commits, and its name is the base of its path |
| GitLog.CollectLogsKeeps | internal/git/log.go:41-52 | a repository has a result exactly when it is an input and its commits were read and are not empty |
| GitLog.CollectLogsPaths | internal/git/log.go:41-52 | the result paths are the inputs filtered by whether they yield commits: one result per occurrence, in input order |
| GitLog.CollectLogsOrder | internal/git/log.go:36-52 | in the sequential reading of the repositories, results keep the order of their repositories in the input |
| Paths.Base | internal/git/log.go:48 | the base of a path is never empty, and is "/" or a single path element; an empty path gives "." and a path of separators only gives "/" |
| Paths.BaseOfChild | internal/git/log.go:48 | the base of a directory joined with a plain name, with or without trailing separators, is that name |
| Paths.BaseOfName | internal/git/log.go:48 | a plain name is its own base |
| Scanner.ShouldExclude | internal/git/scanner.go:62-72 | a name is excluded exactly when it starts with "." or equals one of the excludes, compared exactly |
| Scanner.ExpandHome | internal/git/scanner.go:74-83 | a path starting with "~/" becomes the home directory joined with the rest; any other path, or any path when the home directory is unknown, is kept |
| Scanner.ScanRepos | internal/git/scanner.go:11-55 | no error is reported, and no path is returned twice |
| Scanner.ScanReposIsDedup | internal/git/scanner.go:13-51 | the scan returns what the scan paths contribute, with duplicates removed, in the order they are first found |
| Scanner.AddAllIsDedup | internal/git/scanner.go:13-24 | adding paths through the `seen` set keeps exactly the first occurrences; `seen` holds everything added |
| Scanner.ScanEntriesAddsChildren | internal/git/scanner.go:34-51 | the loop over the entries adds the not-excluded subdirectories that hold `.git`, made absolute, in entry order |
| Scanner.ScanRootAddsRootRepos | internal/git/scanner.go:16-51 | one scan path adds its own absolute path when it is a repository, and its child repositories otherwise |
| Scanner.ScanRootsAddsFound | internal/git/scanner.go:15-52 | the loop over the scan paths adds their contributions one scan path after the other |
| Scanner.AddRepo | internal/git/scanner.go:21-24 | the path is appended exactly when it was not seen before, nothing else is, and it is seen afterwards; a state whose `seen` set is its repositories, none twice, stays so |
| Scanner.ScanEntries | internal/git/scanner.go:34-51 | the loop over the entries only appends, every path it appends holds `.git`, and it keeps that invariant |
| Scanner.ScanRoot | internal/git/scanner.go:16-51 | one scan path only appends, and keeps that invariant |
| Scanner.ScanRoots | internal/git/scanner.go:15-52 | after the scan paths, `seen` is exactly the set of the repositories found, and none is found twice |
| Scanner.ChildRepos | internal/git/scanner.go:34-51 | every child repository holds `.git` and is the absolute path of a listed, not-excluded subdirectory |
| Scanner.ScanReposMembers | internal/git/scanner.go:11-55 | a path is returned exactly when some scan path contributes it |
| Scanner.ScanReposOrder | internal/git/scanner.go:21-24 | the result keeps first-seen order: it is a subsequence of the contributions and lists them in order of first appearance |
| Scanner.RootReposShape | internal/git/scanner.go:19-51 | a scan path contributes only itself when it is a repository, otherwise only listed, not-excluded immediate subdirectories that hold `.git`; the scan is never deeper than one level |
| Scanner.RepositoryRootNotDescended | internal/git/scanner.go:19-26 | a scan path that is a repository contributes only itself, whatever its directory lists |
| Scanner.RootNeverExcluded | internal/git/scanner.go:16-26 | a scan path that is a repository is returned even when its name is hidden or excluded |
| Scanner.UnreadableRootIgnored | internal/git/scanner.go:29-32 | a scan path that is neither a repository nor readable can be removed without changing the result |
| Scanner.FoundWithout | internal/git/scanner.go:29-32 | the contributions without such a scan path are the same |
| Report.WeekdayKo | internal/output/terminal.go:122-125 | every weekday has a one-syllable Korean name from the table of seven |
| Report.WeekdayKoInjective | internal/output/terminal.go:122-125 | distinct weekdays get distinct names; Sunday is "일" and Saturday "토" |
| Report.WeekdayKoTable | internal/output/terminal.go:122-125 | weekdays 0 to 6 are named "일", "월", "화", "수", "목", "금", "토" in that order |
| Report.RepoFiles | internal/output/markdown.go:25-28 | the per-repository file total in 64-bit arithmetic is the wrapped exact sum |
| Report.RunningTallyIsTotal | internal/output/markdown.go:18-29 | the totals the loop computes are the number of all commits and the sum of all file counts, both wrapped to 64 bits, however the commits are grouped |
| Report.RunningCommits | internal/output/terminal.go:48-53 | the running commit total is the wrapped number of all commits |
| Report.RunningFiles | internal/output/terminal.go:48-59 | the running file total is the wrapped sum of all file counts |
| Report.TotalCommitsExact | internal/output/markdown.go:18-23 | below 2^63 commits the commit total is exact |
| Report.FilesNote | internal/output/markdown.go:33-37 | the note is empty exactly when the commit changed no files |
| Report.NoteShape | internal/output/markdown.go:33-34 | a non-empty note is " (", the file count in decimal with no leading zero, and " files)"; the count in it reads back |
| Report.NoteAfter | internal/output/terminal.go:101-106 | a line with the note starts with the plain line, is the plain line alone exactly when no files changed, and otherwise goes on with " (", the file count and " files)" |
| Numbers.Atoi | internal/git/log.go:137 | a string of decimal digits, with or without a leading '+' or '-', is read as its signed decimal value exactly when that fits in 64 bits; every other string is rejected |
| Numbers.FormatInt | internal/output/markdown.go:31 | `%d` writes a '-' exactly for negative numbers, then the decimal digits of the magnitude with no leading zero |
| Numbers.AtoiFormatInt | internal/git/log.go:137 | reading back what `%d` prints gives the number again |
| Numbers.Wrap64 | internal/output/markdown.go:18-29 | the wrapped value fits in 64 bits, equals the exact value when that fits, and differs from it by a multiple of 2^64 |
| Numbers.Wrap64Add | internal/output/markdown.go:23-29 | wrapping after every addition is the same as wrapping once at the end |
| Text.TakeBytes | internal/git/log.go:131 | the longest prefix whose UTF-8 encoding fits in `n` bytes |
| Text.Utf8LenAppend | internal/output/terminal.go:63 | the byte length of a concatenation is the sum of the byte lengths |
| Text.TrimLeft | internal/git/log.go:89 | leading white space, and only that, is removed |
| Text.TrimRight | internal/git/log.go:89 | trailing white space, and only that, is removed |
| Text.TrimSpaceSlice | internal/git/log.go:89 | the trimmed text is a slice of the input with only white space before and after it |
| Text.TrimSpaceBlank | internal/git/log.go:93-96 | a line trims to empty exactly when it is all white space |
| Text.TrimSpaceEnds | internal/git/log.go:93 | a trimmed line neither starts nor ends with white space |
| Text.Split | internal/git/log.go:100 | the pieces joined with the separator give the line back, and there is one piece exactly when the separator does not occur |
| Text.SplitCutsLeftmost | internal/git/log.go:100 | every piece but the last ends at the leftmost occurrence of the separator; with the join and `Text.SplitPiecesFree` this fixes the pieces to those of Go's `strings.Split` |
| Text.SplitJoin | internal/git/log.go:89 | lines without the one-character separator, joined with it and split again, come back unchanged |
| Text.SplitPiecesFree | internal/git/log.go:100 | no piece holds the separator |
| Text.IndexOfIsFirst | internal/git/log.go:99 | the occurrence found is the leftmost one, and none is reported only when there is none |
| Text.Fields | internal/git/log.go:135 | the fields are non-empty and hold no white space, and there are none exactly when the line is all white space |
| Text.FirstField | internal/git/log.go:135 | the first field of a line is its first run of non-space characters |
| Text.Repeat | internal/output/terminal.go:67 | `n` copies take `n` times the characters and bytes of one, and character `k` of the result is character `k mod len` of the repeated text |
| Text.UnlinesAppend | internal/output/markdown.go:13-49 | writing two runs of lines is writing their concatenation |
| Text.ContainsOccurrence | internal/git/log.go:99 | `strings.Contains` holds exactly when the text occurs at some position |
| Text.UnlinesHasLine | internal/output/markdown.go:13-49 | every written line, followed by its newline, is in the output |
| Text.UnlinesContains | internal/ai/provider.go:39-53 | text on any written line is in the output |
| Markdown.SectionLines | internal/output/markdown.go:31-39 | a section holds its repository's commit count plus three lines |
| Markdown.ToMarkdown | internal/output/markdown.go:12-50 | the document starts with "# 📅 ", the date, the Korean weekday in parentheses, and an empty line, and it holds the footer line with the totals |
| Markdown.MarkdownHasLine | internal/output/markdown.go:13-49 | every line of the document is written into the output, followed by a newline |
| Markdown.MarkdownHasBullet | internal/output/markdown.go:32-38 | the bullet of every commit of every repository is in the document |
| Markdown.MarkdownHeading | internal/output/markdown.go:21-31 | section `i` starts with the heading of `results[i]` and a blank line, and sections follow the order of the results, each its commit count plus three lines long |
| Markdown.MarkdownBullet | internal/output/markdown.go:32-38 | commit `k` of `results[i]` is bullet `k` of section `i` |
| Markdown.MarkdownSectionEnd | internal/output/markdown.go:39 | a section ends with a blank line after its last bullet |
| Markdown.SectionLine | internal/output/markdown.go:21-40 | line `x` of section `i` sits at the section's start plus `x` |
| Markdown.MarkdownEnd | internal/output/markdown.go:42-47 | the footer carries the total commits, the repository count and the total files; the summary block follows exactly when there is a summary, otherwise the footer ends the document |
| Markdown.BulletFiles | internal/output/markdown.go:33-37 | a bullet is the short hash and subject, with the "(k files)" note exactly when the commit changed files |
| Terminal.HeaderPadding | internal/output/terminal.go:62-67 | the header is padded with `max(3, 50 - bytes)` rule characters and so reaches 50 bytes, counting each rule character as one, whenever it leaves room |
| Terminal.BlockCommits | internal/output/terminal.go:71-87 | compact mode shows `min(n, 3)` commits and otherwise all, always the first ones in order; the "+k more" line with k = n - 3 is there exactly in compact mode with more than three commits |
| Terminal.ReportBlockAt | internal/output/terminal.go:51-89 | block `i` is the block of `results[i]`, and blocks follow the order of the results |
| Terminal.ReportHeaderAt | internal/output/terminal.go:62-68 | each block starts with its repository's header |
| Terminal.ReportCommitAt | internal/output/terminal.go:71-87 | commit line `k` of block `i` prints the `k`-th commit of `results[i]` |
| Terminal.ReportLine | internal/output/terminal.go:51-89 | line `x` of block `i` sits at the block's start plus `x` |
| Terminal.BlockCommitAt | internal/output/terminal.go:77-79 | the `k`-th commit line of a block is the `k`-th commit |
| Terminal.CommitFiles | internal/output/terminal.go:97-107 | a commit line is the short hash and subject, with the "(k files)" note exactly when the commit changed files |
| Terminal.PrintReport | internal/output/terminal.go:41-95 | one text is printed per line of the report, at least three: the date title, an empty line, and last the statistics bar with the totals |
| Terminal.PrintedHeader | internal/output/terminal.go:62-68 | the text printed at the start of block `i` is the padded header of `results[i]` |
| Terminal.PrintedCommit | internal/output/terminal.go:71-87 | the `k`-th text after the header of block `i` is the line of the `k`-th commit of `results[i]` |
| Terminal.Padding | internal/output/terminal.go:63-66 | the padding is at least 3, brings a header of at most 47 bytes to 50 bytes, and is 3 for a longer one |
| Terminal.RepoHeader | internal/output/terminal.go:62-67 | the header text is followed by exactly the padding's count of rule characters |
| Terminal.ReportFooter | internal/output/terminal.go:91-94 | the last line carries the total commits and files whatever the mode, and they match the Markdown footer |
| Provider.NewClaude | internal/ai/claude.go:17-22 | the key is kept, an empty model becomes "claude-haiku-4-5-20251001", and any other model is kept |
| Provider.NewOpenAI | internal/ai/openai.go:17-22 | the key is kept, an empty model becomes "gpt-4o-mini", and any other model is kept |
| Provider.NewOllama | internal/ai/ollama.go:17-25 | an empty address becomes "http://localhost:11434" and an empty model "llama3.2"; given values are kept |
| Provider.DefaultsSettle | internal/ai/ollama.go:17-25 | building a provider from its own settings gives it back |
| Provider.LowerChar | internal/ai/provider.go:19 | a capital ASCII letter becomes its small letter, U+0130 becomes 'i' and the Kelvin sign 'k', every other character is kept, and no capital ASCII letter comes out |
| Provider.ToLower | internal/ai/provider.go:19 | the same for every character of a name, with the length kept, so no capital ASCII letter is left |
| Provider.ToLowerIdempotent | internal/ai/provider.go:19 | lower-casing twice is lower-casing once |
| Provider.NewProvider | internal/ai/provider.go:18-35 | building succeeds exactly for "ollama", or for "claude" or "openai" with a key, in any case; an unsupported-name error carries the name as given |
| Provider.ProviderError.Message | internal/ai/provider.go:21-33 | a missing-key error starts with the provider's name and then says where a key is given; an unsupported-name error quotes the name as given between its lead text and " (claude/openai/ollama)" |
| Provider.NewProviderChoice | internal/ai/provider.go:19-34 | which provider each name builds and its display name; a missing key fails for Claude and OpenAI; any other name is unsupported |
| Provider.NewProviderIgnoresCase | internal/ai/provider.go:19 | names that differ only in case build the same provider or fail the same way, except for the name in an unsupported-name error |
| Provider.NewProviderLowered | internal/ai/provider.go:19 | the lower-cased name builds what the name builds |
| Provider.BuildPromptStart | internal/ai/provider.go:38-44 | the prompt starts with the fixed preamble and is only the preamble when there are no results |
| Provider.PromptBlock | internal/ai/provider.go:46-51 | a repository's prompt block holds its commit count plus two lines |
| Provider.BuildPromptIgnoresSince | internal/ai/provider.go:38-53 | the prompt does not depend on the date argument |
| Provider.PromptBlockAt | internal/ai/provider.go:45-51 | after the fixed preamble, block `i` belongs to `results[i]`, and blocks follow the order of the results |
| Provider.PromptBlockLines | internal/ai/provider.go:46-49 | a block is the Markdown heading "## name (n commits)" and then "- message" per commit in order |
| Provider.PromptAsksKorean | internal/ai/provider.go:40-43 | the prompt asks for the summary in Korean |
| Provider.PromptNamesRepository | internal/ai/provider.go:46 | the prompt names every repository |
| Provider.PromptHasMessage | internal/ai/provider.go:47-49 | the prompt holds every commit message |

## Left out

- The goroutines, mutex and wait group of `CollectLogs` are not modelled. The repositories are read one after the other. The Go code appends results in the order its goroutines finish, so that order is unspecified there. The model keeps input order.
- Running `git log` in `getCommits` is a parameter of `GitLog.CollectLogs`. So are the arguments it builds from the dates and the author. Only the last step, `GitLog.RepoCommits`, is modelled.
- `time.Parse` of the commit date is not modelled. The date field is kept as its raw text. Its parse error is ignored in the source anyway.
- `time.Time` values, `Format` and `Weekday` are not modelled. A `Report.Day` is given as its formatted date and its weekday. The `until` arguments of `ToMarkdown` and `PrintReport` are unused in the source and ignored here.
- GitLog.Truncate: does not cut in the middle of a character, because strings here are Unicode scalar values. Go's `s[:7]` can split a multi-byte character; on git's ASCII hashes the two agree (`GitLog.TruncateAscii`).
- Text.TakeBytes: keeps whole characters only, for the same reason; it is the cut `GitLog.Truncate` uses.
- Provider.ToLower: models Go's `strings.ToLower` only on the characters whose lower case is an ASCII letter. Other characters, such as 'Ä', are kept, where Go would lower them; that cannot change whether the name equals "claude", "openai" or "ollama".
- Provider.LowerChar: lowers only the characters whose lower case is an ASCII letter, so 'Ä' and other letters are kept; `Provider.ToLower` applies it to each character.
- The real file system is an abstract `Scanner.FileSystem`. That covers `os.Stat`, `os.ReadDir`, `filepath.Join` and `filepath.Abs`. Join and Abs are arbitrary functions, and the ignored error of Abs is not modelled. `os.UserHomeDir` is an `Option` parameter.
- lipgloss styling and printing to standard output are not modelled. `Terminal.PrintReport` returns the lines it would print. `PrintSummary` only prints a fixed heading and the given text, so it is not modelled.
- The `strings.Builder` loops of `ToMarkdown` and `BuildPrompt` are not modelled as loops. They are sequences of lines, each written with a newline after it (`Text.Unlines`).
- The `Summarize` methods of the Claude, OpenAI and Ollama providers and `SendSlack` are not modelled, because they are HTTP calls. A provider is the configuration it was built with, and `Name` gives its display name.
- Everything under `cmd/` is not modelled. That is command-line wiring, configuration files, environment variables and the clock.

=== FILE: GitLog.dfy ===
/** The commit records and the parser of `git log --shortstat` output.

    The log is read line by line. A line holding the field separator opens
    a commit; a later line mentioning "file" gives the open commit its
    changed-file count and closes it. Everything else is skipped. */
module GitLog {
  import opened Wrappers
  import opened Text
  import opened Numbers
  import Paths
  import opened Seqs

  /** One commit. `date` is the raw ISO-8601 field; `files` is 0 unless a
      statistics line was read for the commit. */
  datatype Commit = Commit(hash: string, message: string, author: string, date: string, files: int)

  /** The commits collected from one repository. */
  datatype RepoResult = RepoResult(name: string, path: string, commits: seq<Commit>)

  /** Separates hash, subject, author and date in a header line. */
  const Separator: string := "§§"
  /** The substring that marks a statistics line. */
  const StatsMarker: string := "file"
  /** Bytes of the hash that are kept. */
  const HashLength: nat := 7

  // ---------------------------------------------------------------------
  // Fields of a commit

  /** Go's `s[:n]` guarded by `len(s) <= n`: the first `n` bytes of `s`.
      Strings here are characters, so the cut keeps whole characters. */
  function Truncate(s: string, n: nat): (r: string)
    ensures r <= s && Utf8Len(r) <= n
    ensures Utf8Len(s) <= n ==> r == s
    ensures |r| < |s| ==> Utf8Len(s[..|r| + 1]) > n
  {
    if Utf8Len(s) <= n then s else TakeBytes(s, n)
  }

  /** On ASCII text (git's hexadecimal hashes) the cut is exactly the first
      `min(n, |s|)` characters. */
  lemma TruncateAscii(s: string, n: nat)
    requires IsAscii(s)
    ensures Truncate(s, n) == s[..if n < |s| then n else |s|]
  {
    var r := Truncate(s, n);
    assert IsAscii(r) by {
      forall k | 0 <= k < |r| ensures r[k] as int < 0x80 { assert r[k] == s[k]; }
    }
    Utf8LenAscii(r);
    if |r| < |s| {
      var t := s[..|r| + 1];
      assert IsAscii(t) by {
        forall k | 0 <= k < |t| ensures t[k] as int < 0x80 { assert t[k] == s[k]; }
      }
      Utf8LenAscii(t);
    } else {
      assert r == s;
      Utf8LenAscii(s);
    }
  }

  /** The changed-file count of a statistics line: the integer value of its
      first field, or 0 when there is no field or it is not an integer. */
  function ParseFileCount(stat: string): (n: int)
    ensures InInt64(n)
    ensures AllSpace(stat) ==> n == 0
  {
    var parts := Fields(stat);
    if |parts| > 0 then
      match Atoi(parts[0])
      case Some(v) => v
      case None => 0
    else 0
  }

  /** A line that starts, after white space, with the word `w` has the
      count `w` spells, or 0 when `w` is not an integer. */
  lemma ParseFileCountOfWord(pre: string, w: string, post: string)
    requires AllSpace(pre) && |w| > 0 && NoSpace(w)
    requires |post| == 0 || IsSpace(post[0])
    ensures ParseFileCount(pre + w + post) == Atoi(w).GetOr(0)
  {
    FirstField(pre, w, post);
  }

  /** The count printed by git in front of " files changed" is read back. */
  lemma ParseFileCountOfPrinted(n: int, rest: string)
    requires InInt64(n)
    ensures ParseFileCount(" " + FormatInt(n) + " file" + rest) == n
  {
    FormatIntIsWord(n);
    assert AllSpace(" ");
    assert " " + FormatInt(n) + " file" + rest == " " + FormatInt(n) + (" file" + rest);
    ParseFileCountOfWord(" ", FormatInt(n), " file" + rest);
    AtoiFormatInt(n);
  }

  /** The commit described by the fields of a header line; its hash is the
      longest prefix of the first field that fits in `HashLength` bytes. */
  function FromFields(parts: seq<string>): (c: Commit)
    requires |parts| >= 4
    ensures c.hash <= parts[0] && Utf8Len(c.hash) <= HashLength
    ensures |c.hash| < |parts[0]| ==> Utf8Len(parts[0][..|c.hash| + 1]) > HashLength
    ensures Utf8Len(parts[0]) <= HashLength ==> c.hash == parts[0]
    ensures c.message == parts[1] && c.author == parts[2] && c.date == parts[3]
    ensures c.files == 0
  {
    Commit(Truncate(parts[0], HashLength), parts[1], parts[2], parts[3], 0)
  }

  // ---------------------------------------------------------------------
  // The line-by-line parser

  /** The commits read so far; `open` is the commit a statistics line would
      still be attributed to, which is always the most recent one. */
  datatype ParseState = ParseState(done: seq<Commit>, open: Option<Commit>) {
    function Commits(): seq<Commit> {
      done + if open.Some? then [open.value] else []
    }
  }

  const Start: ParseState := ParseState([], None)

  /** Reads one trimmed line: a header line adds a commit and opens it, and
      no line takes back a commit already closed. */
  function Step(st: ParseState, line: string): (r: ParseState)
    ensures st.done <= r.done
    ensures |r.Commits()| == |st.Commits()| + if IsHeader(line) then 1 else 0
    ensures IsHeader(line) ==> r.open == Some(HeaderCommit(line))
  {
    if line == "" then st
    else if Contains(line, Separator) then
      var parts := Split(line, Separator);
      if |parts| < 4 then st
      else ParseState(st.Commits(), Some(FromFields(parts)))
    else if st.open.Some? && Contains(line, StatsMarker) then
      ParseState(st.done + [st.open.value.(files := ParseFileCount(line))], None)
    else st
  }

  /** Reads `lines` in order: one more commit per header line, and the
      closed commits are only ever extended. */
  function Run(st: ParseState, lines: seq<string>): (r: ParseState)
    ensures st.done <= r.done
    ensures |r.Commits()| == |st.Commits()| + |Headers(lines)|
    decreases |lines|
  {
    if |lines| == 0 then st else Run(Step(st, lines[0]), lines[1..])
  }

  /** The trimmed lines of the raw log output: at least one, none of them
      beginning or ending with white space, and a single empty one when the
      output is blank. */
  function LogLines(raw: string): (lines: seq<string>)
    ensures |lines| >= 1
    ensures forall i :: 0 <= i < |lines| ==> Trimmed(lines[i])
    ensures AllSpace(raw) ==> lines == [""]
  {
    var pieces := Split(TrimSpace(raw), "\n");
    var lines := seq(|pieces|, i requires 0 <= i < |pieces| => TrimSpace(pieces[i]));
    TrimmedLines(pieces, lines);
    BlankLog(raw, pieces, lines);
    lines
  }

  /** Lines without white space at their ends or a newline inside, the
      first and the last not empty, written one per line as git does, are
      read back as they were. */
  lemma LogLinesOfOutput(ls: seq<string>)
    requires |ls| >= 1 && ls[0] != "" && ls[|ls| - 1] != ""
    requires forall i :: 0 <= i < |ls| ==> Trimmed(ls[i]) && '\n' !in ls[i]
    ensures LogLines(JoinWith(ls, "\n") + "\n") == ls
  {
    var j := JoinWith(ls, "\n");
    JoinWithEnds(ls, "\n");
    assert Trimmed(ls[0]) && Trimmed(ls[|ls| - 1]);
    TrimSpaceNewline(j);
    SplitJoin(ls, '\n');
    LogLinesOfPieces(j + "\n", ls);
  }

  lemma LogLinesOfPieces(raw: string, ls: seq<string>)
    requires Split(TrimSpace(raw), "\n") == ls
    requires forall i :: 0 <= i < |ls| ==> Trimmed(ls[i])
    ensures LogLines(raw) == ls
  {
    var lines := LogLines(raw);
    forall i | 0 <= i < |ls| ensures lines[i] == ls[i] {
      TrimSpaceKeeps(ls[i]);
    }
  }

  /** Neither end of `line` is white space. */
  predicate Trimmed(line: string) {
    |line| > 0 ==> !IsSpace(line[0]) && !IsSpace(line[|line| - 1])
  }

  lemma TrimmedLines(pieces: seq<string>, lines: seq<string>)
    requires |lines| == |pieces|
    requires forall i :: 0 <= i < |pieces| ==> lines[i] == TrimSpace(pieces[i])
    ensures forall i :: 0 <= i < |lines| ==> Trimmed(lines[i])
  {
    forall i | 0 <= i < |lines| ensures Trimmed(lines[i]) { TrimSpaceEnds(pieces[i]); }
  }

  lemma BlankLog(raw: string, pieces: seq<string>, lines: seq<string>)
    requires pieces == Split(TrimSpace(raw), "\n")
    requires |lines| == |pieces|
    requires forall i :: 0 <= i < |pieces| ==> lines[i] == TrimSpace(pieces[i])
    ensures AllSpace(raw) ==> lines == [""]
  {
    if AllSpace(raw) {
      TrimSpaceBlank(raw);
      assert !Contains(TrimSpace(raw), "\n");
      assert pieces[0] == "";
      assert TrimSpace("") == "";
    }
  }

  function ParseLines(lines: seq<string>): seq<Commit> {
    Run(Start, lines).Commits()
  }

  /** Go's parseGitLog; it never reports an error. */
  function ParseGitLog(raw: string): (r: Result<seq<Commit>, string>)
    ensures r.Success?
  {
    Success(ParseLines(LogLines(raw)))
  }

  // ---------------------------------------------------------------------
  // What the parser computes, stated without a state machine

  /** A line that opens a commit: it holds the separator and has at least
      four fields. */
  predicate IsHeader(line: string) {
    Contains(line, Separator) && |Split(line, Separator)| >= 4
  }

  /** A line that gives the open commit its file count. */
  predicate IsStats(line: string) {
    !Contains(line, Separator) && Contains(line, StatsMarker)
  }

  function HeaderCommit(line: string): Commit
    requires IsHeader(line)
  {
    FromFields(Split(line, Separator))
  }

  /** The first statistics line before the next header, if any. */
  function StatsOf(lines: seq<string>): Option<string>
    decreases |lines|
  {
    if |lines| == 0 || IsHeader(lines[0]) then None
    else if IsStats(lines[0]) then Some(lines[0])
    else StatsOf(lines[1..])
  }

  /** The file count a commit gets from the lines that follow its header. */
  function FilesOf(lines: seq<string>): int {
    match StatsOf(lines)
    case Some(l) => ParseFileCount(l)
    case None => 0
  }

  /** One commit per header line, in order, each with the count of the first
      statistics line that follows it before the next header. */
  function Reference(lines: seq<string>): seq<Commit>
    decreases |lines|
  {
    if |lines| == 0 then []
    else if IsHeader(lines[0]) then
      [HeaderCommit(lines[0]).(files := FilesOf(lines[1..]))] + Reference(lines[1..])
    else Reference(lines[1..])
  }

  /** The header lines of `lines`, in order. */
  function Headers(lines: seq<string>): seq<string>
    decreases |lines|
  {
    if |lines| == 0 then []
    else (if IsHeader(lines[0]) then [lines[0]] else []) + Headers(lines[1..])
  }

  /** The commit `c` once the lines after its header are read. */
  function Claim(c: Commit, lines: seq<string>): Commit {
    match StatsOf(lines)
    case None => c
    case Some(l) => c.(files := ParseFileCount(l))
  }

  /** What the state `st` contributes once `lines` have been read. */
  function Settle(st: ParseState, lines: seq<string>): seq<Commit> {
    st.done + if st.open.Some? then [Claim(st.open.value, lines)] else []
  }

  /** How one line moves the state, by the kind of line. */
  lemma StepByKind(st: ParseState, line: string)
    ensures IsHeader(line) ==> Step(st, line) == ParseState(st.Commits(), Some(HeaderCommit(line)))
    ensures IsStats(line) ==>
      Step(st, line) == if st.open.Some? then ParseState(st.done + [st.open.value.(files := ParseFileCount(line))], None) else st
    ensures !IsHeader(line) && !IsStats(line) ==> Step(st, line) == st
  {
    if line != "" && Contains(line, Separator) && !IsHeader(line) {
      assert |Split(line, Separator)| < 4;
    }
  }

  /** Commits still open have not been given a file count. */
  predicate FreshOpen(st: ParseState) {
    st.open.Some? ==> st.open.value.files == 0
  }

  /** Reading one line moves the reference reading along with the state. */
  lemma StepMatchesReference(st: ParseState, lines: seq<string>)
    requires |lines| > 0 && FreshOpen(st)
    ensures FreshOpen(Step(st, lines[0]))
    ensures Settle(Step(st, lines[0]), lines[1..]) + Reference(lines[1..]) == Settle(st, lines) + Reference(lines)
  {
    StepByKind(st, lines[0]);
    if IsHeader(lines[0]) {
      HeaderStep(st, lines);
    } else if IsStats(lines[0]) {
      StatsStep(st, lines);
    } else {
      InertStep(st, lines);
    }
  }

  lemma HeaderStep(st: ParseState, lines: seq<string>)
    requires |lines| > 0 && IsHeader(lines[0])
    ensures Settle(ParseState(st.Commits(), Some(HeaderCommit(lines[0]))), lines[1..]) + Reference(lines[1..])
      == Settle(st, lines) + Reference(lines)
  {
    var h := HeaderCommit(lines[0]);
    var h' := h.(files := FilesOf(lines[1..]));
    SettleAfterHeader(st, h, lines[1..]);
    ReferenceAtHeader(lines);
    SettleWithoutStats(st, lines);
    ConcatShift(st.Commits(), h', Reference(lines[1..]));
  }

  lemma ReferenceAtHeader(lines: seq<string>)
    requires |lines| > 0 && IsHeader(lines[0])
    ensures StatsOf(lines) == None
    ensures Reference(lines) == [HeaderCommit(lines[0]).(files := FilesOf(lines[1..]))] + Reference(lines[1..])
  {
  }

  lemma ConcatShift<T>(a: seq<T>, h: T, b: seq<T>)
    ensures (a + [h]) + b == a + ([h] + b)
  {
  }

  lemma SettleAfterHeader(st: ParseState, h: Commit, rest: seq<string>)
    requires h.files == 0
    ensures Settle(ParseState(st.Commits(), Some(h)), rest) == st.Commits() + [h.(files := FilesOf(rest))]
  {
    if StatsOf(rest).None? { assert h.(files := 0) == h; }
    assert Claim(h, rest) == h.(files := FilesOf(rest));
  }

  lemma SettleWithoutStats(st: ParseState, lines: seq<string>)
    requires StatsOf(lines) == None
    ensures Settle(st, lines) == st.Commits()
  {
  }

  lemma StatsStep(st: ParseState, lines: seq<string>)
    requires |lines| > 0 && IsStats(lines[0])
    ensures var next := if st.open.Some? then ParseState(st.done + [st.open.value.(files := ParseFileCount(lines[0]))], None) else st;
      Settle(next, lines[1..]) + Reference(lines[1..]) == Settle(st, lines) + Reference(lines)
  {
    assert Reference(lines) == Reference(lines[1..]);
    assert StatsOf(lines) == Some(lines[0]);
  }

  lemma InertStep(st: ParseState, lines: seq<string>)
    requires |lines| > 0 && !IsHeader(lines[0]) && !IsStats(lines[0])
    ensures Settle(st, lines[1..]) + Reference(lines[1..]) == Settle(st, lines) + Reference(lines)
  {
    assert Reference(lines) == Reference(lines[1..]);
    assert StatsOf(lines) == StatsOf(lines[1..]);
  }

  /** The state machine agrees with the reference reading from any state
      whose open commit has no file count yet. */
  lemma {:induction false} RunMatchesReference(st: ParseState, lines: seq<string>)
    requires FreshOpen(st)
    ensures Run(st, lines).Commits() == Settle(st, lines) + Reference(lines)
    decreases |lines|
  {
    if |lines| > 0 {
      StepMatchesReference(st, lines);
      RunMatchesReference(Step(st, lines[0]), lines[1..]);
    }
  }

  /** The parser computes the reference reading of its lines. */
  lemma ParseLinesIsReference(lines: seq<string>)
    ensures ParseLines(lines) == Reference(lines)
  {
    RunMatchesReference(Start, lines);
  }

  /** The parse of git's output is the reference reading of its lines. */
  lemma ParseGitLogIsReference(raw: string)
    ensures ParseGitLog(raw) == Success(Reference(LogLines(raw)))
  {
    ParseLinesIsReference(LogLines(raw));
  }

  /** Output written as lines `ls` parses to the reference commits of `ls`:
      one per header line, with the count of its statistics line. */
  lemma ParseGitLogOfOutput(ls: seq<string>)
    requires |ls| >= 1 && ls[0] != "" && ls[|ls| - 1] != ""
    requires forall i :: 0 <= i < |ls| ==> Trimmed(ls[i]) && '\n' !in ls[i]
    ensures ParseGitLog(JoinWith(ls, "\n") + "\n") == Success(Reference(ls))
  {
    LogLinesOfOutput(ls);
    ParseGitLogIsReference(JoinWith(ls, "\n") + "\n");
  }

  /** Empty or white-space-only output holds no commits. */
  lemma ParseBlank(raw: string)
    requires AllSpace(raw)
    ensures ParseGitLog(raw) == Success([])
  {
    var lines := LogLines(raw);
    assert Step(Start, lines[0]) == Start;
    assert Run(Start, lines[1..]) == Start;
  }

  /** There is one commit per header line, in the order of the header lines,
      and its hash, message, author and date come from that line. */
  lemma {:induction false} ReferenceHeaders(lines: seq<string>)
    ensures |Reference(lines)| == |Headers(lines)|
    ensures forall k :: 0 <= k < |Headers(lines)| ==>
      IsHeader(Headers(lines)[k]) && Reference(lines)[k].(files := 0) == HeaderCommit(Headers(lines)[k])
    decreases |lines|
  {
    if |lines| > 0 {
      var rest := lines[1..];
      ReferenceHeaders(rest);
      if IsHeader(lines[0]) {
        var c := HeaderCommit(lines[0]);
        assert Reference(lines) == [c.(files := FilesOf(rest))] + Reference(rest);
        assert Headers(lines) == [lines[0]] + Headers(rest);
      } else {
        assert Reference(lines) == Reference(rest);
        assert Headers(lines) == Headers(rest);
      }
    }
  }

  /** The commits of the later lines do not depend on the earlier ones. */
  lemma {:induction false} ReferenceSuffix(pre: seq<string>, rest: seq<string>)
    ensures |Reference(pre + rest)| == |Headers(pre)| + |Reference(rest)|
    ensures Reference(pre + rest)[|Headers(pre)|..] == Reference(rest)
    decreases |pre|
  {
    if |pre| > 0 {
      assert (pre + rest)[1..] == pre[1..] + rest;
      ReferenceSuffix(pre[1..], rest);
    } else {
      assert pre + rest == rest;
    }
  }

  /** A commit whose header is followed by no statistics line before the
      next header (or the end) keeps a file count of 0. */
  lemma NoStatsMeansZero(pre: seq<string>, h: string, mid: seq<string>, post: seq<string>)
    requires IsHeader(h)
    requires forall k :: 0 <= k < |mid| ==> !IsHeader(mid[k]) && !IsStats(mid[k])
    requires |post| == 0 || IsHeader(post[0])
    ensures |Headers(pre)| < |Reference(pre + [h] + mid + post)|
    ensures Reference(pre + [h] + mid + post)[|Headers(pre)|].files == 0
  {
    var tail := [h] + mid + post;
    assert pre + [h] + mid + post == pre + tail;
    HeaderWithoutStats(h, mid, post);
    ReferenceSuffixHead(pre, tail);
  }

  lemma HeaderWithoutStats(h: string, mid: seq<string>, post: seq<string>)
    requires IsHeader(h)
    requires forall k :: 0 <= k < |mid| ==> !IsHeader(mid[k]) && !IsStats(mid[k])
    requires |post| == 0 || IsHeader(post[0])
    ensures |Reference([h] + mid + post)| > 0 && Reference([h] + mid + post)[0].files == 0
  {
    var tail := [h] + mid + post;
    assert tail[1..] == mid + post;
    StatsOfSkips(mid, post);
    assert StatsOf(post) == None;
    ReferenceAtHeader(tail);
  }

  lemma ReferenceSuffixHead(pre: seq<string>, tail: seq<string>)
    requires |Reference(tail)| > 0
    ensures |Headers(pre)| < |Reference(pre + tail)|
    ensures Reference(pre + tail)[|Headers(pre)|] == Reference(tail)[0]
  {
    ReferenceSuffix(pre, tail);
    FirstOfSuffix(Reference(pre + tail), |Headers(pre)|, Reference(tail));
  }

  lemma FirstOfSuffix<T>(x: seq<T>, n: nat, y: seq<T>)
    requires n <= |x| && x[n..] == y && |y| > 0
    ensures n < |x| && x[n] == y[0]
  {
  }

  lemma {:induction false} StatsOfSkips(mid: seq<string>, post: seq<string>)
    requires forall k :: 0 <= k < |mid| ==> !IsHeader(mid[k]) && !IsStats(mid[k])
    ensures StatsOf(mid + post) == StatsOf(post)
    decreases |mid|
  {
    if |mid| > 0 {
      assert (mid + post)[1..] == mid[1..] + post;
      StatsOfSkips(mid[1..], post);
    } else {
      assert mid + post == post;
    }
  }

  // ---------------------------------------------------------------------
  // Lines the parser passes over

  lemma {:induction false} RunAppend(st: ParseState, a: seq<string>, b: seq<string>)
    ensures Run(st, a + b) == Run(Run(st, a), b)
    decreases |a|
  {
    if |a| > 0 {
      assert (a + b)[1..] == a[1..] + b;
      RunAppend(Step(st, a[0]), a[1..], b);
    } else {
      assert a + b == b;
    }
  }

  /** A line that is neither a header nor a statistics line (a blank line,
      a malformed header, any other text) can be removed without effect;
      in particular a malformed header does not close the open commit. */
  lemma InertLineIgnored(st: ParseState, a: seq<string>, line: string, b: seq<string>)
    requires !IsHeader(line) && !IsStats(line)
    ensures Run(st, a + [line] + b) == Run(st, a + b)
  {
    var mid := Run(st, a);
    RunAppend(st, a + [line], b);
    RunAppend(st, a, [line]);
    RunAppend(st, a, b);
    assert Step(mid, line) == mid by {
      if line != "" && Contains(line, Separator) {
        assert |Split(line, Separator)| < 4;
      }
    }
    assert Run(mid, [line]) == Run(Step(mid, line), []);
  }

  /** A statistics line always leaves no commit open. */
  lemma StatsCloses(st: ParseState, line: string)
    requires IsStats(line)
    ensures Step(st, line).open.None?
    ensures Step(st, line).Commits() == st.done +
      if st.open.Some? then [st.open.value.(files := ParseFileCount(line))] else []
  {
  }

  /** A statistics line read while no commit is open is ignored; hence each
      commit takes at most one statistics line. */
  lemma UnclaimedStatsIgnored(st: ParseState, a: seq<string>, line: string, b: seq<string>)
    requires IsStats(line)
    requires Run(st, a).open.None?
    ensures Run(st, a + [line] + b) == Run(st, a + b)
  {
    var mid := Run(st, a);
    RunAppend(st, a + [line], b);
    RunAppend(st, a, [line]);
    RunAppend(st, a, b);
    assert Run(mid, [line]) == Run(Step(mid, line), []);
  }

  /** A second statistics line right after the first changes nothing. */
  lemma SecondStatsIgnored(st: ParseState, a: seq<string>, s1: string, s2: string, b: seq<string>)
    requires IsStats(s1) && IsStats(s2)
    ensures Run(st, a + [s1] + [s2] + b) == Run(st, a + [s1] + b)
  {
    RunAppend(st, a, [s1]);
    assert Run(Run(st, a), [s1]) == Step(Run(st, a), s1);
    StatsCloses(Run(st, a), s1);
    UnclaimedStatsIgnored(st, a + [s1], s2, b);
  }

  // ---------------------------------------------------------------------
  // Collecting the logs of several repositories

  /** The last step of Go's getCommits: the output of `git log` in a
      repository, or the error that running it gave, read by the parser. The
      only errors are those of running git. */
  function RepoCommits(gitOutput: Result<string, string>): (r: Result<seq<Commit>, string>)
    ensures r.Success? <==> gitOutput.Success?
    ensures r.Failure? ==> r.error == gitOutput.error
    ensures gitOutput.Success? ==> r == Success(Reference(LogLines(gitOutput.value)))
  {
    match gitOutput
    case Failure(e) => Failure(e)
    case Success(out) =>
      ParseGitLogIsReference(out);
      ParseGitLog(out)
  }

  /** Whether a repository yields a result: its commits were read and there
      is at least one. */
  predicate Yields(commits: Result<seq<Commit>, string>) {
    commits.Success? && |commits.value| > 0
  }

  /** Go's CollectLogs, one repository after the other; `getCommits` stands
      for running git in a repository. Repositories whose commits fail or are
      empty are dropped, every other one gives a result named after the last
      element of its path. No error is reported. */
  function CollectLogs(repos: seq<Paths.Path>, getCommits: Paths.Path -> Result<seq<Commit>, string>): (r: Result<seq<RepoResult>, string>)
    ensures r.Success?
    ensures |r.value| <= |repos|
    ensures forall k :: 0 <= k < |r.value| ==>
      var res := r.value[k];
      && res.path in repos && Yields(getCommits(res.path))
      && res.name == Paths.Base(res.path)
      && res.commits == getCommits(res.path).value
      && |res.commits| > 0
    decreases |repos|
  {
    if |repos| == 0 then Success([])
    else
      var repo := repos[|repos| - 1];
      var earlier := CollectLogs(repos[..|repos| - 1], getCommits).value;
      if Yields(getCommits(repo)) then
        Success(earlier + [RepoResult(Paths.Base(repo), repo, getCommits(repo).value)])
      else Success(earlier)
  }

  function PathsOf(results: seq<RepoResult>): seq<Paths.Path> {
    seq(|results|, k requires 0 <= k < |results| => results[k].path)
  }

  lemma PathsOfAppend(results: seq<RepoResult>, last: RepoResult)
    ensures PathsOf(results + [last]) == PathsOf(results) + [last.path]
  {
    var a, b := PathsOf(results + [last]), PathsOf(results) + [last.path];
    forall k | 0 <= k < |a| ensures a[k] == b[k] {
      if k < |results| { assert (results + [last])[k] == results[k]; }
    }
  }

  /** The repositories that yield a result, in input order, each as often
      as it occurs. */
  function YieldingPaths(repos: seq<Paths.Path>, getCommits: Paths.Path -> Result<seq<Commit>, string>): seq<Paths.Path>
    decreases |repos|
  {
    if |repos| == 0 then []
    else (if Yields(getCommits(repos[0])) then [repos[0]] else []) + YieldingPaths(repos[1..], getCommits)
  }

  lemma {:induction false} YieldingPathsAppend(repos: seq<Paths.Path>, getCommits: Paths.Path -> Result<seq<Commit>, string>, last: Paths.Path)
    ensures YieldingPaths(repos + [last], getCommits)
      == YieldingPaths(repos, getCommits) + (if Yields(getCommits(last)) then [last] else [])
    decreases |repos|
  {
    if |repos| == 0 {
      assert repos + [last] == [last];
    } else {
      assert (repos + [last])[1..] == repos[1..] + [last];
      YieldingPathsAppend(repos[1..], getCommits, last);
    }
  }

  /** The results are the repositories filtered by whether they yield one:
      one result per occurrence of such a repository, in input order. */
  lemma {:induction false} CollectLogsPaths(repos: seq<Paths.Path>, getCommits: Paths.Path -> Result<seq<Commit>, string>)
    ensures PathsOf(CollectLogs(repos, getCommits).value) == YieldingPaths(repos, getCommits)
    decreases |repos|
  {
    if |repos| > 0 {
      var front, repo := repos[..|repos| - 1], repos[|repos| - 1];
      CollectLogsPaths(front, getCommits);
      assert repos == front + [repo];
      YieldingPathsAppend(front, getCommits, repo);
      if Yields(getCommits(repo)) {
        PathsOfAppend(CollectLogs(front, getCommits).value, RepoResult(Paths.Base(repo), repo, getCommits(repo).value));
      }
    }
  }

  /** A repository has a result exactly when it is one of the inputs and
      its commits were read and are not empty. */
  lemma {:induction false} CollectLogsKeeps(repos: seq<Paths.Path>, getCommits: Paths.Path -> Result<seq<Commit>, string>, p: Paths.Path)
    ensures p in PathsOf(CollectLogs(repos, getCommits).value) <==> p in repos && Yields(getCommits(p))
    decreases |repos|
  {
    if |repos| > 0 {
      var front := repos[..|repos| - 1];
      CollectLogsKeeps(front, getCommits, p);
      assert repos == front + [repos[|repos| - 1]];
      var repo := repos[|repos| - 1];
      if Yields(getCommits(repo)) {
        var earlier := CollectLogs(front, getCommits).value;
        PathsOfAppend(earlier, RepoResult(Paths.Base(repo), repo, getCommits(repo).value));
      }
    }
  }

  /** Results follow the order of their repositories in the input. */
  lemma {:induction false} CollectLogsOrder(repos: seq<Paths.Path>, getCommits: Paths.Path -> Result<seq<Commit>, string>)
    ensures Subsequence(PathsOf(CollectLogs(repos, getCommits).value), repos)
    decreases |repos|
  {
    if |repos| > 0 {
      var front := repos[..|repos| - 1];
      CollectLogsOrder(front, getCommits);
      var ps := PathsOf(CollectLogs(front, getCommits).value);
      var repo := repos[|repos| - 1];
      if Yields(getCommits(repo)) {
        var res := CollectLogs(front, getCommits).value;
        PathsOfAppend(res, RepoResult(Paths.Base(repo), repo, getCommits(repo).value));
        SubsequenceExtend(ps, front, repo);
      } else {
        SubsequenceSkip(ps, front, repo);
      }
    }
  }
}

=== FILE: Markdown.dfy ===
/** The Markdown report: a title with the day, one section per repository
    with a bullet per commit, a footer with the totals and, when there is
    one, the summary. The document is a sequence of lines, each written
    with a newline after it; `Render` gives a line's characters. */
module Markdown {
  import opened Wrappers
  import opened Text
  import opened Numbers
  import opened Seqs
  import opened GitLog
  import opened Report

  /** The kinds of line the document holds. */
  datatype Line =
    | TitleLine(since: Day)
    | Heading(repo: RepoResult)
    | Bullet(commit: Commit)
    | Blank
    | RuleLine
    | Footer(tally: Tally, projects: int)
    | SummaryHeading
    | Summary(summary: string)

  /** A repository's heading: its name and how many commits it has. */
  function HeadingText(r: RepoResult): string {
    "## " + r.name + CommitCount(|r.commits|)
  }

  function CommitCount(n: int): string {
    " (" + FormatInt(n) + " commits)"
  }

  /** A commit's bullet: its short hash as code, its subject and the note
      on changed files. */
  function BulletText(c: Commit): string {
    Subject(c) + FilesNote(c.files)
  }

  function Subject(c: Commit): string {
    "- `" + c.hash + "` " + c.message
  }

  function FooterText(t: Tally, projects: int): string {
    "📊 **총 " + FormatInt(t.commits) + " commits | " + FormatInt(projects) + "개 프로젝트 | "
      + FormatInt(t.files) + " files changed**"
  }

  /** The characters of a line, without its newline. */
  function Render(line: Line): string {
    match line
    case TitleLine(since) => "# 📅 " + DayTitle(since)
    case Heading(r) => HeadingText(r)
    case Bullet(c) => BulletText(c)
    case Blank => ""
    case RuleLine => "---"
    case Footer(t, projects) => FooterText(t, projects)
    case SummaryHeading => "## 📝 요약"
    case Summary(s) => s
  }

  function Texts(lines: seq<Line>): seq<string> {
    seq(|lines|, j requires 0 <= j < |lines| => Render(lines[j]))
  }

  function Bullets(cs: seq<Commit>): seq<Line> {
    seq(|cs|, k requires 0 <= k < |cs| => Bullet(cs[k]))
  }

  /** A repository's section: its heading, a blank line, its bullets and a
      blank line. */
  function SectionLines(r: RepoResult): (lines: seq<Line>)
    ensures |lines| == |r.commits| + 3
  {
    [Heading(r), Blank] + Bullets(r.commits) + [Blank]
  }

  function Sections(results: seq<RepoResult>): seq<seq<Line>> {
    seq(|results|, i requires 0 <= i < |results| => SectionLines(results[i]))
  }

  function SummaryLines(summary: string): seq<Line> {
    if summary == "" then [] else [Blank, SummaryHeading, Blank, Summary(summary)]
  }

  /** The lines of the document. The totals are the running totals of the
      program's loop. */
  function DocumentLines(results: seq<RepoResult>, since: Day, summary: string): seq<Line> {
    [TitleLine(since), Blank] + Flatten(Sections(results))
      + [RuleLine, Blank, Footer(RunningTally(results), |results|)] + SummaryLines(summary)
  }

  /** Go's ToMarkdown; `until` is not used. The document opens with the
      title line, built from the day and its Korean weekday, and an empty
      line, and it holds the footer line with the totals of all commits. */
  function ToMarkdown(results: seq<RepoResult>, since: Day, until: Day, summary: string): (doc: string)
    ensures HasPrefix(doc, "# 📅 " + DayTitle(since) + "\n" + "" + "\n")
    ensures Contains(doc, FooterText(Totals(results), |results|) + "\n")
  {
    var texts := Texts(DocumentLines(results, since, summary));
    UnlinesStart(texts);
    FooterWritten(results, since, summary);
    Unlines(texts)
  }

  lemma FooterWritten(results: seq<RepoResult>, since: Day, summary: string)
    ensures Contains(Unlines(Texts(DocumentLines(results, since, summary))), FooterText(Totals(results), |results|) + "\n")
  {
    var lines := DocumentLines(results, since, summary);
    MarkdownEnd(results, since, summary);
    var at := |lines| - if summary == "" then 1 else 5;
    assert Texts(lines)[at] == FooterText(Totals(results), |results|);
    UnlinesHasLine(Texts(lines), at);
  }

  // ---------------------------------------------------------------------
  // What the document holds

  /** Section `i` belongs to `results[i]`: it starts at line
      `SectionStart(results, i)` with the repository's heading, followed by
      a blank line. Sections follow the order of the results, each as long
      as its repository has commits, plus three. */
  function SectionStart(results: seq<RepoResult>, i: nat): nat
    requires i <= |results|
  {
    2 + Offset(Sections(results), i)
  }

  lemma MarkdownHeading(results: seq<RepoResult>, since: Day, summary: string, i: nat)
    requires i < |results|
    ensures var lines, at := DocumentLines(results, since, summary), SectionStart(results, i);
      at + 1 < |lines| && lines[at] == Heading(results[i]) && lines[at + 1] == Blank
    ensures SectionStart(results, i + 1) == SectionStart(results, i) + |results[i].commits| + 3
  {
    OffsetNext(Sections(results), i);
    SectionLine(results, since, summary, i, 0, SectionStart(results, i));
    SectionLine(results, since, summary, i, 1, SectionStart(results, i) + 1);
  }

  /** Commit `k` of `results[i]` is bullet `k` of its section. */
  lemma MarkdownBullet(results: seq<RepoResult>, since: Day, summary: string, i: nat, k: nat)
    requires i < |results| && k < |results[i].commits|
    ensures var lines, at := DocumentLines(results, since, summary), SectionStart(results, i);
      at + 2 + k < |lines| && lines[at + 2 + k] == Bullet(results[i].commits[k])
  {
    SectionLine(results, since, summary, i, 2 + k, SectionStart(results, i) + 2 + k);
  }

  /** The section ends with a blank line after its last bullet. */
  lemma MarkdownSectionEnd(results: seq<RepoResult>, since: Day, summary: string, i: nat)
    requires i < |results|
    ensures var lines, at := DocumentLines(results, since, summary), SectionStart(results, i);
      at + 2 + |results[i].commits| < |lines| && lines[at + 2 + |results[i].commits|] == Blank
  {
    var n := |results[i].commits|;
    SectionLine(results, since, summary, i, 2 + n, SectionStart(results, i) + 2 + n);
  }

  /** Line `x` of section `i` is line `SectionStart(results, i) + x` of the
      document. */
  lemma SectionLine(results: seq<RepoResult>, since: Day, summary: string, i: nat, x: nat, at: nat)
    requires i < |results| && x < |results[i].commits| + 3 && at == SectionStart(results, i) + x
    ensures var lines := DocumentLines(results, since, summary);
      at < |lines| && lines[at] == SectionLines(results[i])[x]
  {
    var footer := [RuleLine, Blank, Footer(RunningTally(results), |results|)];
    assert Sections(results)[i] == SectionLines(results[i]);
    FlattenWithin([TitleLine(since), Blank], Sections(results), footer, SummaryLines(summary), i, x, at);
  }

  /** The footer counts all commits, the repositories and all changed files;
      the summary section follows exactly when there is a summary, and
      otherwise the footer line ends the document. */
  lemma MarkdownEnd(results: seq<RepoResult>, since: Day, summary: string)
    ensures var lines := DocumentLines(results, since, summary);
      var footer := Footer(Totals(results), |results|);
      && (summary == "" ==> lines[|lines| - 1] == footer)
      && (summary != "" ==>
            && |lines| >= 5 && lines[|lines| - 5] == footer
            && lines[|lines| - 4..] == [Blank, SummaryHeading, Blank, Summary(summary)])
  {
    RunningTallyIsTotal(results);
  }

  /** A bullet shows the commit's short hash and subject, then the note
      " (k files)" exactly when the commit changed files. */
  lemma BulletFiles(c: Commit)
    ensures Render(Bullet(c)) == BulletText(c)
    ensures EndsWithNote(Subject(c), BulletText(c), c.files)
  {
    var plain, note := Subject(c), FilesNote(c.files);
    assert BulletText(c) == plain + note;
    NoteAfter(plain, c.files);
  }

  /** Every line of the document, followed by a newline, is written in the
      Markdown text. */
  lemma MarkdownHasLine(results: seq<RepoResult>, since: Day, until: Day, summary: string, j: nat)
    requires j < |DocumentLines(results, since, summary)|
    ensures Contains(ToMarkdown(results, since, until, summary), Render(DocumentLines(results, since, summary)[j]) + "\n")
  {
    UnlinesHasLine(Texts(DocumentLines(results, since, summary)), j);
  }

  /** In particular each commit's bullet is written, followed by a newline. */
  lemma MarkdownHasBullet(results: seq<RepoResult>, since: Day, until: Day, summary: string, i: nat, k: nat)
    requires i < |results| && k < |results[i].commits|
    ensures Contains(ToMarkdown(results, since, until, summary), BulletText(results[i].commits[k]) + "\n")
  {
    var lines, at := DocumentLines(results, since, summary), SectionStart(results, i) + 2 + k;
    MarkdownBullet(results, since, summary, i, k);
    assert Render(lines[at]) == BulletText(results[i].commits[k]);
    MarkdownHasLine(results, since, until, summary, at);
  }
}

=== FILE: Numbers.dfy ===
/** Decimal integers as the program reads and writes them: Go's strconv.Atoi
    (on a 64-bit platform, where `int` has 64 bits), the `%d` verb of
    fmt.Sprintf, and the wrap-around of 64-bit `int` addition. */
module Numbers {
  import opened Wrappers
  import opened Text

  const Int64Min: int := -0x8000_0000_0000_0000
  const Int64Max: int := 0x7FFF_FFFF_FFFF_FFFF
  const Modulus64: int := 0x1_0000_0000_0000_0000

  predicate InInt64(n: int) {
    Int64Min <= n <= Int64Max
  }

  predicate IsDigit(c: char) {
    '0' <= c <= '9'
  }

  predicate AllDigits(s: string) {
    forall k :: 0 <= k < |s| ==> IsDigit(s[k])
  }

  /** The value of a string of decimal digits, most significant first. */
  function DigitsValue(s: string): nat
    requires AllDigits(s)
    decreases |s|
  {
    if |s| == 0 then 0
    else 10 * DigitsValue(s[..|s| - 1]) + (s[|s| - 1] as int - '0' as int)
  }

  /** Go's strconv.Atoi: an optional sign followed by at least one ASCII
      digit, whose value fits in 64 bits; anything else is an error. */
  function Atoi(s: string): (r: Option<int>)
    ensures r.Some? ==> InInt64(r.value) && |s| > 0
    ensures r.Some? ==> AllDigits(s) || (|s| > 1 && (s[0] == '+' || s[0] == '-') && AllDigits(s[1..]))
    ensures |s| > 0 && AllDigits(s) ==>
      (r.Some? <==> DigitsValue(s) <= 0x7FFF_FFFF_FFFF_FFFF) && (r.Some? ==> r.value == DigitsValue(s))
    ensures |s| > 1 && s[0] == '+' && AllDigits(s[1..]) ==>
      (r.Some? <==> DigitsValue(s[1..]) <= 0x7FFF_FFFF_FFFF_FFFF) && (r.Some? ==> r.value == DigitsValue(s[1..]))
    ensures |s| > 1 && s[0] == '-' && AllDigits(s[1..]) ==>
      (r.Some? <==> DigitsValue(s[1..]) <= 0x8000_0000_0000_0000) && (r.Some? ==> r.value == -(DigitsValue(s[1..]) as int))
  {
    if |s| > 0 && (s[0] == '+' || s[0] == '-') then
      var digits := s[1..];
      if |digits| == 0 || !AllDigits(digits) then None
      else
        var v: int := if s[0] == '-' then -(DigitsValue(digits) as int) else DigitsValue(digits);
        if InInt64(v) then Some(v) else None
    else if |s| == 0 || !AllDigits(s) then None
    else if InInt64(DigitsValue(s)) then Some(DigitsValue(s))
    else None
  }

  /** The decimal digits of `n`, without leading zeros. */
  function NatDigits(n: nat): (r: string)
    ensures |r| > 0 && AllDigits(r)
    ensures DigitsValue(r) == n
    ensures r[0] == '0' ==> n == 0 && r == "0"
    decreases n
  {
    var last := ['0' + ((n % 10) as char)];
    if n < 10 then
      assert last[..0] == [];
      last
    else
      var front := NatDigits(n / 10);
      assert (front + last)[..|front|] == front;
      front + last
  }

  /** What `%d` prints for `n`: a minus sign exactly when `n` is negative,
      then the decimal digits of its magnitude without leading zeros. */
  function FormatInt(n: int): (r: string)
    ensures |r| > 0 && (r[0] == '-' <==> n < 0)
    ensures n < 0 ==> |r| > 1 && AllDigits(r[1..]) && DigitsValue(r[1..]) == -n && r[1] != '0'
    ensures n >= 0 ==> AllDigits(r) && DigitsValue(r) == n && (r[0] == '0' ==> n == 0 && r == "0")
  {
    if n < 0 then "-" + NatDigits(-n) else NatDigits(n)
  }

  /** Printed numbers contain no white space, are ASCII, and never end in a
      space, so they always form one field. */
  lemma FormatIntIsWord(n: int)
    ensures |FormatInt(n)| > 0 && NoSpace(FormatInt(n)) && IsAscii(FormatInt(n))
  {
    var d := NatDigits(if n < 0 then -n else n);
    assert forall k :: 0 <= k < |d| ==> IsDigit(d[k]);
    if n < 0 {
      assert forall k :: 1 <= k < |FormatInt(n)| ==> FormatInt(n)[k] == d[k - 1];
    }
  }

  /** Reading back what `%d` printed gives the number again. */
  lemma {:induction false} AtoiFormatInt(n: int)
    requires InInt64(n)
    ensures Atoi(FormatInt(n)) == Some(n)
  {
    var s := FormatInt(n);
    if n < 0 {
      assert s[1..] == NatDigits(-n);
    } else {
      var d := NatDigits(n);
      assert IsDigit(d[0]);
    }
  }

  /** 64-bit two's-complement wrap-around of an exact integer. */
  function Wrap64(x: int): (r: int)
    ensures InInt64(r)
    ensures InInt64(x) ==> r == x
    ensures (x - r) % Modulus64 == 0
  {
    (x - Int64Min) % Modulus64 + Int64Min
  }

  /** Wrapping after every addition is the same as wrapping once at the end,
      so a running 64-bit sum equals the wrapped exact sum. */
  lemma Wrap64Add(a: int, b: int)
    ensures Wrap64(Wrap64(a) + b) == Wrap64(a + b)
  {
    var q := (a - Int64Min) / Modulus64;
    assert Wrap64(a) == a - q * Modulus64;
    ModShift(a + b - Int64Min, q);
  }

  lemma ModShift(x: int, q: int)
    ensures (x - q * Modulus64) % Modulus64 == x % Modulus64
  {
    var m := Modulus64;
    var r := x % m;
    var d := x / m;
    assert x == d * m + r;
    assert x - q * m == (d - q) * m + r;
  }
}

=== FILE: Paths.dfy ===
/** Go's path/filepath.Base on a Unix system, where the separator is '/' and
    there are no volume names. */
module Paths {

  type Path = string

  const Slash: char := '/'

  /** `s` holds no separator: it is a single path element. */
  predicate NoSlash(s: string) {
    forall k :: 0 <= k < |s| ==> s[k] != Slash
  }

  /** `p` without its trailing separators. */
  function StripTrailingSlashes(p: Path): (r: Path)
    ensures r <= p
    ensures forall k :: |r| <= k < |p| ==> p[k] == Slash
    ensures |r| > 0 ==> r[|r| - 1] != Slash
    decreases |p|
  {
    if |p| > 0 && p[|p| - 1] == Slash then StripTrailingSlashes(p[..|p| - 1]) else p
  }

  /** The part of `p` after its last separator (all of `p` when it has none). */
  function AfterLastSlash(p: Path): (r: Path)
    ensures |r| <= |p| && r == p[|p| - |r|..]
    ensures NoSlash(r)
    ensures |r| < |p| ==> p[|p| - |r| - 1] == Slash
    decreases |p|
  {
    if |p| == 0 || p[|p| - 1] == Slash then []
    else
      var r := AfterLastSlash(p[..|p| - 1]);
      assert p[|p| - |r| - 1..] == r + [p[|p| - 1]];
      r + [p[|p| - 1]]
  }

  /** The last element of `path`: trailing separators are ignored, an empty
      path gives ".", and a path of separators only gives "/". */
  function Base(path: Path): (r: Path)
    ensures r != []
    ensures r == "/" || NoSlash(r)
    ensures path == [] ==> r == "."
    ensures path != [] && (forall k :: 0 <= k < |path| ==> path[k] == Slash) ==> r == "/"
  {
    if path == "" then "."
    else
      var b := AfterLastSlash(StripTrailingSlashes(path));
      if b == "" then "/" else b
  }

  /** Base undoes joining a directory and a plain name, with or without
      trailing separators. */
  lemma BaseOfChild(dir: Path, name: string, slashes: nat)
    requires name != [] && NoSlash(name)
    ensures Base(dir + "/" + name + seq(slashes, _ => Slash)) == name
  {
    var p := dir + "/" + name + seq(slashes, _ => Slash);
    var q := dir + "/" + name;
    StripOfSlashes(q, slashes);
    assert StripTrailingSlashes(p) == q;
    AfterLastSlashOfName(dir + "/", name);
  }

  /** A name without separators is its own base. */
  lemma BaseOfName(name: string)
    requires name != [] && NoSlash(name)
    ensures Base(name) == name
  {
    assert StripTrailingSlashes(name) == name;
    assert [] + name == name;
    AfterLastSlashOfName([], name);
  }

  lemma {:induction false} StripOfSlashes(q: Path, slashes: nat)
    requires |q| > 0 && q[|q| - 1] != Slash
    ensures StripTrailingSlashes(q + seq(slashes, _ => Slash)) == q
    decreases slashes
  {
    var p := q + seq(slashes, _ => Slash);
    if slashes == 0 {
      assert p == q;
    } else {
      assert p[..|p| - 1] == q + seq(slashes - 1, _ => Slash);
      StripOfSlashes(q, slashes - 1);
    }
  }

  lemma {:induction false} AfterLastSlashOfName(front: Path, name: string)
    requires |front| == 0 || front[|front| - 1] == Slash
    requires NoSlash(name)
    ensures AfterLastSlash(front + name) == name
    decreases |name|
  {
    var p := front + name;
    if |name| == 0 {
      assert p == front;
    } else {
      var init, last := name[..|name| - 1], name[|name| - 1];
      DropLastOfConcat(front, name);
      assert p[|p| - 1] == last != Slash;
      AfterLastSlashOfName(front, init);
      assert init + [last] == name;
    }
  }

  lemma DropLastOfConcat(a: string, b: string)
    requires |b| > 0
    ensures (a + b)[..|a + b| - 1] == a + b[..|b| - 1]
  {
    var x, y := (a + b)[..|a + b| - 1], a + b[..|b| - 1];
    assert |x| == |y|;
    forall k | 0 <= k < |x| ensures x[k] == y[k] { }
  }
}

=== FILE: Provider.dfy ===
/** Choosing the AI provider that writes the summary, and the prompt it is
    given. The providers' network calls are not part of this model: a
    provider is the configuration it was built with. */
module Provider {
  import opened Wrappers
  import opened Text
  import opened Numbers
  import opened Seqs
  import opened GitLog
  import Markdown

  const DefaultClaudeModel: string := "claude-haiku-4-5-20251001"
  const DefaultOpenAIModel: string := "gpt-4o-mini"
  const DefaultOllamaURL: string := "http://localhost:11434"
  const DefaultOllamaModel: string := "llama3.2"

  /** A configured provider. */
  datatype Provider =
    | Claude(apiKey: string, model: string)
    | OpenAI(apiKey: string, model: string)
    | Ollama(baseURL: string, model: string)
  {
    /** The display name each provider's Name method returns. */
    function Name(): string {
      match this
      case Claude(_, _) => "Claude"
      case OpenAI(_, _) => "OpenAI"
      case Ollama(_, _) => "Ollama"
    }
  }

  const KeyHint: string := " API 키가 필요합니다 (GITDAY_API_KEY 환경변수 또는 설정 파일)"
  const UnsupportedLead: string := "지원하지 않는 AI 프로바이더: "
  const SupportedNames: string := " (claude/openai/ollama)"

  /** The two ways building a provider fails. */
  datatype ProviderError =
    | MissingKey(provider: string)
    | Unsupported(name: string)
  {
    /** The error text the program reports: a missing key names the
        provider and where a key can be given; an unsupported name is
        quoted as given, followed by the supported names. */
    function Message(): (r: string)
      ensures this.MissingKey? ==>
        && HasPrefix(r, this.provider) && r[|this.provider|..] == KeyHint
      ensures this.Unsupported? ==>
        && |UnsupportedLead| + |this.name| + |SupportedNames| == |r|
        && r[..|UnsupportedLead|] == UnsupportedLead
        && r[|UnsupportedLead|..|r| - |SupportedNames|] == this.name
        && r[|r| - |SupportedNames|..] == SupportedNames
    {
      match this
      case MissingKey(p) =>
        assert (p + KeyHint)[..|p|] == p;
        p + KeyHint
      case Unsupported(n) =>
        var r := UnsupportedLead + n + SupportedNames;
        assert r[..|UnsupportedLead|] == UnsupportedLead;
        assert r[|UnsupportedLead|..|r| - |SupportedNames|] == n;
        assert r[|r| - |SupportedNames|..] == SupportedNames;
        r
    }
  }

  /** `given`, or `default` when `given` is empty. */
  function OrDefault(given: string, default: string): (r: string)
    ensures given != "" ==> r == given
    ensures given == "" ==> r == default
  {
    if given == "" then default else given
  }

  /** Go's NewClaude: an empty model is replaced by the default one. */
  function NewClaude(apiKey: string, model: string): (p: Provider)
    ensures p.Claude? && p.apiKey == apiKey && p.model != ""
    ensures model != "" ==> p.model == model
    ensures model == "" ==> p.model == DefaultClaudeModel
  {
    Claude(apiKey, OrDefault(model, DefaultClaudeModel))
  }

  /** Go's NewOpenAI: an empty model is replaced by the default one. */
  function NewOpenAI(apiKey: string, model: string): (p: Provider)
    ensures p.OpenAI? && p.apiKey == apiKey && p.model != ""
    ensures model != "" ==> p.model == model
    ensures model == "" ==> p.model == DefaultOpenAIModel
  {
    OpenAI(apiKey, OrDefault(model, DefaultOpenAIModel))
  }

  /** Go's NewOllama: an empty address or model is replaced by the default. */
  function NewOllama(baseURL: string, model: string): (p: Provider)
    ensures p.Ollama? && p.baseURL != "" && p.model != ""
    ensures baseURL != "" ==> p.baseURL == baseURL
    ensures baseURL == "" ==> p.baseURL == DefaultOllamaURL
    ensures model != "" ==> p.model == model
    ensures model == "" ==> p.model == DefaultOllamaModel
  {
    Ollama(OrDefault(baseURL, DefaultOllamaURL), OrDefault(model, DefaultOllamaModel))
  }

  /** Building a provider from its own settings gives it back: defaults
      are only filled in once. */
  lemma DefaultsSettle(p: Provider)
    requires p.model != "" && (p.Ollama? ==> p.baseURL != "")
    ensures p.Claude? ==> NewClaude(p.apiKey, p.model) == p
    ensures p.OpenAI? ==> NewOpenAI(p.apiKey, p.model) == p
    ensures p.Ollama? ==> NewOllama(p.baseURL, p.model) == p
  {
  }

  // ---------------------------------------------------------------------
  // Choosing by name

  /** Go's unicode.ToLower on the characters whose lower case is an ASCII
      letter: the capitals A to Z, U+0130 (capital I with dot above) and
      U+212A (Kelvin sign). Every other character is kept. */
  function LowerChar(c: char): (r: char)
    ensures !('A' <= r <= 'Z')
    ensures 'A' <= c <= 'Z' ==> r as int == c as int + 32
    ensures c == '\U{0130}' ==> r == 'i'
    ensures c == '\U{212A}' ==> r == 'k'
    ensures r != c ==> 'A' <= c <= 'Z' || c == '\U{0130}' || c == '\U{212A}'
  {
    if 'A' <= c <= 'Z' then (c as int + 32) as char
    else if c == '\U{0130}' then 'i'
    else if c == '\U{212A}' then 'k'
    else c
  }

  /** Go's strings.ToLower on those characters: each capital A to Z becomes
      its small letter, U+0130 becomes 'i', U+212A becomes 'k', every other
      character stays, so no capital is left. */
  function ToLower(s: string): (r: string)
    ensures |r| == |s|
    ensures forall k :: 0 <= k < |s| && 'A' <= s[k] <= 'Z' ==> r[k] as int == s[k] as int + 32
    ensures forall k :: 0 <= k < |s| && s[k] == '\U{0130}' ==> r[k] == 'i'
    ensures forall k :: 0 <= k < |s| && s[k] == '\U{212A}' ==> r[k] == 'k'
    ensures forall k :: 0 <= k < |s| && !('A' <= s[k] <= 'Z') && s[k] != '\U{0130}' && s[k] != '\U{212A}' ==> r[k] == s[k]
    ensures forall k :: 0 <= k < |r| ==> !('A' <= r[k] <= 'Z')
  {
    seq(|s|, k requires 0 <= k < |s| => LowerChar(s[k]))
  }

  /** Lower-casing twice is lower-casing once. */
  lemma ToLowerIdempotent(s: string)
    ensures ToLower(ToLower(s)) == ToLower(s)
  {
    var once := ToLower(s);
    forall k | 0 <= k < |s| ensures LowerChar(once[k]) == once[k] { }
  }

  /** Go's NewProvider: the name is compared case-insensitively; Claude and
      OpenAI need an API key, Ollama does not, and any other name is
      refused. */
  function NewProvider(providerName: string, apiKey: string, model: string, ollamaURL: string)
    : (r: Result<Provider, ProviderError>)
    ensures var key := ToLower(providerName);
      r.Success? <==> key == "ollama" || ((key == "claude" || key == "openai") && apiKey != "")
    ensures r.Failure? && r.error.Unsupported? ==> r.error.name == providerName
  {
    match ToLower(providerName)
    case "claude" => if apiKey == "" then Failure(MissingKey("Claude")) else Success(NewClaude(apiKey, model))
    case "openai" => if apiKey == "" then Failure(MissingKey("OpenAI")) else Success(NewOpenAI(apiKey, model))
    case "ollama" => Success(NewOllama(ollamaURL, model))
    case _ => Failure(Unsupported(providerName))
  }

  /** Which provider each name selects, under which display name, and why
      building one fails. */
  lemma NewProviderChoice(providerName: string, apiKey: string, model: string, ollamaURL: string)
    ensures var key, r := ToLower(providerName), NewProvider(providerName, apiKey, model, ollamaURL);
      && (key == "claude" && apiKey != "" ==> r == Success(NewClaude(apiKey, model)) && r.value.Name() == "Claude")
      && (key == "openai" && apiKey != "" ==> r == Success(NewOpenAI(apiKey, model)) && r.value.Name() == "OpenAI")
      && (key == "ollama" ==> r == Success(NewOllama(ollamaURL, model)) && r.value.Name() == "Ollama")
      && (key == "claude" && apiKey == "" ==> r == Failure(MissingKey("Claude")))
      && (key == "openai" && apiKey == "" ==> r == Failure(MissingKey("OpenAI")))
      && (key != "claude" && key != "openai" && key != "ollama" ==> r == Failure(Unsupported(providerName)))
  {
  }

  /** Names that differ only in case choose the same provider; only the
      text of an unsupported-name error tells them apart. */
  lemma NewProviderIgnoresCase(a: string, b: string, apiKey: string, model: string, ollamaURL: string)
    requires ToLower(a) == ToLower(b)
    ensures var ra, rb := NewProvider(a, apiKey, model, ollamaURL), NewProvider(b, apiKey, model, ollamaURL);
      && ra.Success? == rb.Success?
      && (ra.Success? ==> ra == rb)
      && (ra.Failure? ==> ra.error.MissingKey? == rb.error.MissingKey?)
      && (ra.Failure? && ra.error.MissingKey? ==> ra == rb)
  {
  }

  /** In particular the lower-cased name chooses what the name chooses. */
  lemma NewProviderLowered(name: string, apiKey: string, model: string, ollamaURL: string)
    ensures NewProvider(ToLower(name), apiKey, model, ollamaURL).Success?
      <==> NewProvider(name, apiKey, model, ollamaURL).Success?
    ensures NewProvider(name, apiKey, model, ollamaURL).Success? ==>
      NewProvider(ToLower(name), apiKey, model, ollamaURL) == NewProvider(name, apiKey, model, ollamaURL)
  {
    ToLowerIdempotent(name);
    NewProviderIgnoresCase(ToLower(name), name, apiKey, model, ollamaURL);
  }

  // ---------------------------------------------------------------------
  // The prompt

  const Preamble: seq<string> := [
    "다음은 개발자의 Git 커밋 로그입니다. 이 내용을 바탕으로 오늘 한 일을 자연어로 간결하게 요약해주세요.",
    "- 프로젝트별로 핵심 작업을 1-2문장으로 요약",
    "- 마지막에 전체적인 한줄 요약 추가",
    "- 한국어로 작성",
    ""
  ]

  function MessageLine(c: Commit): string {
    "- " + c.message
  }

  /** One repository: its Markdown heading, one line per commit message
      and a blank line. */
  function PromptBlock(r: RepoResult): (lines: seq<string>)
    ensures |lines| == |r.commits| + 2
  {
    [Markdown.HeadingText(r)] + seq(|r.commits|, k requires 0 <= k < |r.commits| => MessageLine(r.commits[k])) + [""]
  }

  function PromptBlocks(results: seq<RepoResult>): seq<seq<string>> {
    seq(|results|, i requires 0 <= i < |results| => PromptBlock(results[i]))
  }

  function PromptLines(results: seq<RepoResult>): seq<string> {
    Preamble + Flatten(PromptBlocks(results))
  }

  /** Go's BuildPrompt; `since` is not used. */
  function BuildPrompt(results: seq<RepoResult>, since: string): string {
    Unlines(PromptLines(results))
  }

  /** The prompt opens with the fixed instructions, each on its own line
      and followed by an empty line; with no results it is nothing else. */
  lemma BuildPromptStart(results: seq<RepoResult>, since: string)
    ensures HasPrefix(BuildPrompt(results, since), Unlines(Preamble))
    ensures |results| == 0 ==> BuildPrompt(results, since) == Unlines(Preamble)
  {
    var rest := Flatten(PromptBlocks(results));
    UnlinesAppend(Preamble, rest);
    if |results| == 0 {
      assert rest == [];
      assert Preamble + rest == Preamble;
    }
  }

  /** The prompt does not depend on the date it is given. */
  lemma BuildPromptIgnoresSince(results: seq<RepoResult>, a: string, b: string)
    ensures BuildPrompt(results, a) == BuildPrompt(results, b)
  {
  }

  /** Block `i` of the prompt belongs to `results[i]`: its heading comes
      first, then its commit messages in order. */
  lemma PromptBlockAt(results: seq<RepoResult>, i: nat, x: nat)
    requires i < |results| && x < |PromptBlocks(results)[i]|
    ensures PromptBlocks(results)[i] == PromptBlock(results[i])
    ensures var lines, at := PromptLines(results), |Preamble| + Offset(PromptBlocks(results), i);
      at + x < |lines| && lines[at + x] == PromptBlocks(results)[i][x]
    ensures Offset(PromptBlocks(results), i + 1) == Offset(PromptBlocks(results), i) + |results[i].commits| + 2
  {
    var bs := PromptBlocks(results);
    FlattenAt(bs, i, x);
    OffsetNext(bs, i);
    ConcatIndex(Preamble, Flatten(bs), [], Offset(bs, i) + x);
  }

  lemma PromptBlockLines(r: RepoResult, k: nat)
    requires k < |r.commits|
    ensures PromptBlock(r)[0] == Markdown.HeadingText(r)
    ensures PromptBlock(r)[1 + k] == MessageLine(r.commits[k])
  {
    var msgs := seq(|r.commits|, k requires 0 <= k < |r.commits| => MessageLine(r.commits[k]));
    ConcatIndex([Markdown.HeadingText(r)], msgs, [""], k);
  }

  /** The prompt asks for the summary in Korean. */
  lemma PromptAsksKorean(results: seq<RepoResult>, since: string)
    ensures Contains(BuildPrompt(results, since), "한국어")
  {
    var lines := PromptLines(results);
    assert lines[3] == "- 한국어로 작성";
    KoreanInstruction();
    UnlinesContains(lines, 3, "한국어");
  }

  lemma KoreanInstruction()
    ensures Contains("- 한국어로 작성", "한국어")
  {
    OccurrenceIsFound("- 한국어로 작성", "한국어", 2);
  }

  /** The prompt names every repository, in its heading. */
  lemma PromptNamesRepository(results: seq<RepoResult>, since: string, i: nat)
    requires i < |results|
    ensures Contains(BuildPrompt(results, since), results[i].name)
  {
    var r := results[i];
    PromptBlockAt(results, i, 0);
    assert PromptBlock(r)[0] == Markdown.HeadingText(r);
    ContainsSelf(r.name);
    ContainsInConcat("## ", r.name, Markdown.CommitCount(|r.commits|), r.name);
    UnlinesContains(PromptLines(results), |Preamble| + Offset(PromptBlocks(results), i), r.name);
  }

  /** The prompt holds every commit message, on a line of its own after
      the repository's heading. */
  lemma PromptHasMessage(results: seq<RepoResult>, since: string, i: nat, k: nat)
    requires i < |results| && k < |results[i].commits|
    ensures Contains(BuildPrompt(results, since), results[i].commits[k].message)
  {
    var r, lines := results[i], PromptLines(results);
    var at := |Preamble| + Offset(PromptBlocks(results), i) + 1 + k;
    PromptBlockLines(r, k);
    PromptBlockAt(results, i, 1 + k);
    assert lines[at] == MessageLine(r.commits[k]);
    MessageLineHolds(r.commits[k]);
    UnlinesContains(lines, at, r.commits[k].message);
  }

  lemma MessageLineHolds(c: Commit)
    ensures Contains(MessageLine(c), c.message)
  {
    ContainsSelf(c.message);
    ContainsInConcat("- ", c.message, "", c.message);
    assert "- " + c.message + "" == MessageLine(c);
  }
}

=== FILE: Report.dfy ===
/** What the two report renderers share: the day the report starts, its
    Korean weekday name, the totals of a report and the note on changed
    files. */
module Report {
  import opened Wrappers
  import opened Text
  import opened Numbers
  import opened Seqs
  import opened GitLog

  /** Go's time.Weekday: Sunday is 0. */
  type Weekday = w: nat | w < 7

  /** The start of the reported period as the renderers use it: its date in
      the layout "2006-01-02" and its weekday. */
  datatype Day = Day(date: string, weekday: Weekday)

  const KoreanDays: seq<string> := ["일", "월", "화", "수", "목", "금", "토"]

  /** Go's weekdayKo: the one-syllable Korean name of a weekday. */
  function WeekdayKo(w: Weekday): (r: string)
    ensures r in KoreanDays
    ensures |r| == 1 && Utf8Len(r) == 3
  {
    KoreanDays[w]
  }

  /** Distinct weekdays get distinct names, Sunday first. */
  lemma WeekdayKoInjective(a: Weekday, b: Weekday)
    ensures WeekdayKo(a) == WeekdayKo(b) ==> a == b
    ensures WeekdayKo(0) == "일" && WeekdayKo(6) == "토"
  {
  }

  /** The whole table: Sunday "일" through Saturday "토", in order. */
  lemma WeekdayKoTable()
    ensures WeekdayKo(0) == "일" && WeekdayKo(1) == "월" && WeekdayKo(2) == "화"
    ensures WeekdayKo(3) == "수" && WeekdayKo(4) == "목" && WeekdayKo(5) == "금"
    ensures WeekdayKo(6) == "토"
  {
  }

  /** The header line both renderers print: the date and its weekday. */
  function DayTitle(since: Day): string {
    since.date + " (" + WeekdayKo(since.weekday) + ")"
  }

  // ---------------------------------------------------------------------
  // Totals

  /** All commits of a report, repository after repository. */
  function AllCommits(results: seq<RepoResult>): seq<Commit>
    decreases |results|
  {
    if |results| == 0 then [] else AllCommits(results[..|results| - 1]) + results[|results| - 1].commits
  }

  /** The exact sum of the file counts of `cs`. */
  function SumFiles(cs: seq<Commit>): int
    decreases |cs|
  {
    if |cs| == 0 then 0 else SumFiles(cs[..|cs| - 1]) + cs[|cs| - 1].files
  }

  /** The exact number of commits of a report. */
  function TotalCommits(results: seq<RepoResult>): nat {
    |AllCommits(results)|
  }

  /** The totals of a report, stated on all of its commits: how many there
      are and how many files they changed, reduced to 64 bits. */
  function Totals(results: seq<RepoResult>): Tally {
    Tally(Wrap64(TotalCommits(results)), Wrap64(SumFiles(AllCommits(results))))
  }

  /** Go's running sum of the file counts of one repository, in 64-bit
      `int` arithmetic. */
  function RepoFiles(cs: seq<Commit>): (n: int)
    ensures n == Wrap64(SumFiles(cs))
    decreases |cs|
  {
    if |cs| == 0 then 0
    else
      var front := RepoFiles(cs[..|cs| - 1]);
      Wrap64Add(SumFiles(cs[..|cs| - 1]), cs[|cs| - 1].files);
      Wrap64(front + cs[|cs| - 1].files)
  }

  /** The two totals of a report. */
  datatype Tally = Tally(commits: int, files: int)

  /** Go's loop over the repositories: it adds up the commit counts and the
      per-repository file counts, in 64-bit `int` arithmetic. */
  function RunningTally(results: seq<RepoResult>): Tally
    decreases |results|
  {
    if |results| == 0 then Tally(0, 0)
    else
      var t := RunningTally(results[..|results| - 1]);
      var r := results[|results| - 1];
      Tally(Wrap64(t.commits + |r.commits|), Wrap64(t.files + RepoFiles(r.commits)))
  }

  lemma {:induction false} SumFilesAppend(a: seq<Commit>, b: seq<Commit>)
    ensures SumFiles(a + b) == SumFiles(a) + SumFiles(b)
    decreases |b|
  {
    if |b| == 0 {
      assert a + b == a;
    } else {
      AppendInit(a, b);
      SumFilesAppend(a, b[..|b| - 1]);
    }
  }

  /** The running totals are the number of commits and the sum of all file
      counts of the report, both reduced to 64 bits. They do not depend on
      how the commits are grouped into repositories. */
  lemma RunningTallyIsTotal(results: seq<RepoResult>)
    ensures RunningTally(results) == Totals(results)
  {
    RunningCommits(results);
    RunningFiles(results);
  }

  lemma {:induction false} RunningCommits(results: seq<RepoResult>)
    ensures RunningTally(results).commits == Wrap64(TotalCommits(results))
    decreases |results|
  {
    if |results| > 0 {
      var init, r := results[..|results| - 1], results[|results| - 1];
      var n := TotalCommits(init);
      RunningCommits(init);
      assert TotalCommits(results) == n + |r.commits|;
      Wrap64Add(n, |r.commits|);
    }
  }

  lemma {:induction false} RunningFiles(results: seq<RepoResult>)
    ensures RunningTally(results).files == Wrap64(SumFiles(AllCommits(results)))
    decreases |results|
  {
    if |results| > 0 {
      var init, r := results[..|results| - 1], results[|results| - 1];
      var a, b := SumFiles(AllCommits(init)), SumFiles(r.commits);
      RunningFiles(init);
      SumFilesAppend(AllCommits(init), r.commits);
      assert SumFiles(AllCommits(results)) == a + b;
      ModAddBoth(a, b);
    }
  }

  /** Wrapping either summand first does not change the wrapped sum. */
  lemma ModAddBoth(a: int, b: int)
    ensures Wrap64(Wrap64(a) + Wrap64(b)) == Wrap64(a + b)
  {
    Wrap64Add(a, Wrap64(b));
    Wrap64Add(b, a);
    assert Wrap64(a + Wrap64(b)) == Wrap64(Wrap64(b) + a);
  }

  /** Below 2^63 commits the commit total is exact. */
  lemma TotalCommitsExact(results: seq<RepoResult>)
    requires TotalCommits(results) <= Int64Max
    ensures RunningTally(results).commits == TotalCommits(results)
  {
    RunningTallyIsTotal(results);
  }

  // ---------------------------------------------------------------------
  // Commit lines

  /** The note " (k files)" both renderers put after a commit that changed
      files; empty otherwise. */
  function FilesNote(files: int): (r: string)
    ensures r == "" <==> files <= 0
  {
    if files > 0 then " (" + FormatInt(files) + " files)" else ""
  }

  /** The note is " (", then `k` written in decimal without leading zeros,
      then " files)"; the count reads back whenever it fits in 64 bits. */
  lemma NoteShape(files: int)
    ensures files > 0 ==> IsNote(FilesNote(files), files)
    ensures InInt64(files) && files > 0 ==> Atoi(FilesNote(files)[2..|FilesNote(files)| - 7]) == Some(files)
  {
    if files > 0 {
      NoteParts(" (", FormatInt(files), " files)");
      ReadBack(files);
    }
  }

  /** `r` is " (", the digits of `files`, and " files)". */
  predicate IsNote(r: string, files: int) {
    && |r| > 9 && r[..2] == " (" && r[|r| - 7..] == " files)"
    && AllDigits(r[2..|r| - 7]) && DigitsValue(r[2..|r| - 7]) == files && r[2] != '0'
  }

  lemma NoteParts<T>(a: seq<T>, b: seq<T>, c: seq<T>)
    ensures var r := a + b + c;
      r[..|a|] == a && r[|a|..|r| - |c|] == b && r[|r| - |c|..] == c
  {
    var r := a + b + c;
    assert r[..|a|] == a;
    assert r[|a|..|r| - |c|] == b;
    assert r[|r| - |c|..] == c;
  }

  /** `t` is `plain` followed by the note on `files` changed files: it is
      `plain` alone exactly when no file changed, and otherwise the note
      follows, its count reading back whenever it fits in 64 bits. */
  predicate EndsWithNote(plain: string, t: string, files: int) {
    && HasPrefix(t, plain)
    && (t == plain <==> files <= 0)
    && (files > 0 ==> IsNote(t[|plain|..], files))
    && (InInt64(files) && files > 0 ==> Atoi(t[|plain| + 2..|t| - 7]) == Some(files))
  }

  /** A line that ends with the note: it starts with `plain`, is `plain`
      alone exactly when no file changed, and otherwise goes on with the
      note. */
  lemma NoteAfter(plain: string, files: int)
    ensures EndsWithNote(plain, plain + FilesNote(files), files)
  {
    NoteShape(files);
    NoteAfterOf(plain, FilesNote(files), files);
  }

  lemma NoteAfterOf(plain: string, note: string, files: int)
    requires note == "" <==> files <= 0
    requires files > 0 ==> IsNote(note, files)
    requires InInt64(files) && files > 0 ==> Atoi(note[2..|note| - 7]) == Some(files)
    ensures EndsWithNote(plain, plain + note, files)
  {
    var t := plain + note;
    SliceOfAppend(plain, note, 0, |note|);
    assert t[|plain|..] == note;
    if files > 0 {
      SliceOfAppend(plain, note, 2, |note| - 7);
      assert t[|plain| + 2..|t| - 7] == note[2..|note| - 7];
    }
  }

  lemma ReadBack(n: int)
    ensures InInt64(n) ==> Atoi(FormatInt(n)) == Some(n)
  {
    if InInt64(n) { AtoiFormatInt(n); }
  }
}

=== FILE: Scanner.dfy ===
/** The repository scanner. Each scan path is a repository itself or a
    directory whose immediate subdirectories are candidate repositories; the
    found repositories are returned as absolute paths, each once, in the
    order they are first found.

    The file system is abstract: which paths are directories, and what the
    readable directories list. Joining and making a path absolute are
    abstract functions, as is the home directory. */
module Scanner {
  import opened Wrappers
  import opened Text
  import opened Seqs
  import opened Paths

  /** One directory entry as os.ReadDir reports it; `isDir` is false for
      files and for symbolic links. */
  datatype Entry = Entry(name: string, isDir: bool)

  /** `dirs` are the paths os.Stat reports as directories (after following
      links); `listing` gives, for each directory that can be read, its
      entries in the order os.ReadDir returns them. */
  datatype FileSystem = FileSystem(dirs: set<Path>, listing: map<Path, seq<Entry>>)

  /** filepath.Join and filepath.Abs (whose error is ignored, so whatever it
      returns is used). */
  datatype PathOps = PathOps(join: (Path, string) -> Path, abs: Path -> Path)

  const GitDir: string := ".git"

  /** Go's isGitRepo: `path` holds a `.git` directory. */
  predicate IsGitRepo(fs: FileSystem, ops: PathOps, path: Path) {
    ops.join(path, GitDir) in fs.dirs
  }

  /** Go's shouldExclude: hidden names and names listed in `excludes` are
      skipped, compared exactly. */
  function ShouldExclude(name: string, excludes: seq<string>): (r: bool)
    ensures r <==> HasPrefix(name, ".") || name in excludes
    decreases |excludes|
  {
    if HasPrefix(name, ".") then true
    else if |excludes| == 0 then false
    else if name == excludes[0] then true
    else
      assert excludes == [excludes[0]] + excludes[1..];
      ShouldExclude(name, excludes[1..])
  }

  /** Go's expandHome: a leading "~/" is replaced by the home directory;
      `home` is None when the home directory cannot be determined, and then
      the path is kept. */
  function ExpandHome(ops: PathOps, home: Option<Path>, path: Path): (r: Path)
    ensures HasPrefix(path, "~/") && home.Some? ==> r == ops.join(home.value, path[2..])
    ensures !HasPrefix(path, "~/") || home.None? ==> r == path
  {
    if HasPrefix(path, "~/") then
      match home
      case Some(h) => ops.join(h, path[2..])
      case None => path
    else path
  }

  // ---------------------------------------------------------------------
  // The scan, as the program runs it

  /** The repositories found so far and the set of those already seen. */
  datatype ScanState = ScanState(repos: seq<Path>, seen: set<Path>)

  const Empty: ScanState := ScanState([], {})

  /** `seen` is exactly the set of the repositories found, and none of
      them is found twice. */
  ghost predicate WellKept(st: ScanState) {
    NoDuplicates(st.repos) && forall p :: p in st.seen <==> p in st.repos
  }

  /** Appends `p` unless it was seen before. */
  function AddRepo(st: ScanState, p: Path): (r: ScanState)
    ensures st.repos <= r.repos && p in r.seen
    ensures r.repos == st.repos || r.repos == st.repos + [p]
    ensures r.repos == st.repos + [p] <==> p !in st.seen
    ensures WellKept(st) ==> WellKept(r) && p in r.repos
  {
    if p in st.seen then st
    else
      var r := ScanState(st.repos + [p], st.seen + {p});
      AppendFresh(st.repos, p);
      r
  }

  lemma AppendFresh(ps: seq<Path>, p: Path)
    ensures NoDuplicates(ps) && p !in ps ==> NoDuplicates(ps + [p])
  {
    if NoDuplicates(ps) && p !in ps {
      var qs := ps + [p];
      forall i, j | 0 <= i < j < |qs| ensures qs[i] != qs[j] {
        if j == |ps| { assert qs[i] == ps[i]; }
        else { assert qs[i] == ps[i] && qs[j] == ps[j]; }
      }
    }
  }

  /** The loop over the entries of the directory `dir`: it only appends,
      each added path holds `.git`, and it keeps the state well kept. */
  function ScanEntries(fs: FileSystem, ops: PathOps, excludes: seq<string>, dir: Path,
                       st: ScanState, entries: seq<Entry>): (r: ScanState)
    ensures st.repos <= r.repos
    ensures forall k :: |st.repos| <= k < |r.repos| ==> IsGitRepo(fs, ops, r.repos[k])
    ensures WellKept(st) ==> WellKept(r)
    decreases |entries|
  {
    if |entries| == 0 then st
    else
      var st' := ScanEntries(fs, ops, excludes, dir, st, entries[..|entries| - 1]);
      var entry := entries[|entries| - 1];
      if !entry.isDir || ShouldExclude(entry.name, excludes) then st'
      else
        var abs := ops.abs(ops.join(dir, entry.name));
        if IsGitRepo(fs, ops, abs) then AddRepo(st', abs) else st'
  }

  /** One scan path: a repository is added and not looked into; otherwise
      its subdirectories are examined, and an unreadable path is skipped. */
  function ScanRoot(fs: FileSystem, ops: PathOps, home: Option<Path>, excludes: seq<string>,
                    st: ScanState, root: Path): (r: ScanState)
    ensures st.repos <= r.repos
    ensures WellKept(st) ==> WellKept(r)
  {
    var expanded := ExpandHome(ops, home, root);
    if IsGitRepo(fs, ops, expanded) then AddRepo(st, ops.abs(expanded))
    else if expanded !in fs.listing then st
    else ScanEntries(fs, ops, excludes, expanded, st, fs.listing[expanded])
  }

  /** The scan paths one after the other, from the empty state: the state
      stays well kept, so no repository is returned twice. */
  function ScanRoots(fs: FileSystem, ops: PathOps, home: Option<Path>, excludes: seq<string>,
                     roots: seq<Path>): (r: ScanState)
    ensures WellKept(r)
    decreases |roots|
  {
    if |roots| == 0 then Empty
    else ScanRoot(fs, ops, home, excludes, ScanRoots(fs, ops, home, excludes, roots[..|roots| - 1]), roots[|roots| - 1])
  }

  /** Go's ScanRepos: the found repositories, each once. It never reports
      an error. */
  function ScanRepos(fs: FileSystem, ops: PathOps, home: Option<Path>, roots: seq<Path>,
                     excludes: seq<string>): (r: Result<seq<Path>, string>)
    ensures r.Success?
    ensures NoDuplicates(r.value)
  {
    ScanReposIsDedup(fs, ops, home, roots, excludes);
    Success(ScanRoots(fs, ops, home, excludes, roots).repos)
  }

  // ---------------------------------------------------------------------
  // What the scan finds, stated without the loop

  /** The repositories among the entries of `dir`, in entry order: the
      subdirectories that are not excluded and, made absolute, hold `.git`. */
  function ChildRepos(fs: FileSystem, ops: PathOps, excludes: seq<string>, dir: Path,
                      entries: seq<Entry>): (r: seq<Path>)
    ensures forall p :: p in r ==>
      && IsGitRepo(fs, ops, p)
      && (exists k :: 0 <= k < |entries| && entries[k].isDir && !ShouldExclude(entries[k].name, excludes)
            && p == ops.abs(ops.join(dir, entries[k].name)))
    decreases |entries|
  {
    if |entries| == 0 then []
    else
      var init, entry := entries[..|entries| - 1], entries[|entries| - 1];
      var front := ChildRepos(fs, ops, excludes, dir, init);
      assert forall k :: 0 <= k < |init| ==> entries[k] == init[k];
      var abs := ops.abs(ops.join(dir, entry.name));
      if entry.isDir && !ShouldExclude(entry.name, excludes) && IsGitRepo(fs, ops, abs) then front + [abs]
      else front
  }

  /** The repositories a scan path contributes, duplicates included. */
  function RootRepos(fs: FileSystem, ops: PathOps, home: Option<Path>, excludes: seq<string>,
                     root: Path): seq<Path>
  {
    var expanded := ExpandHome(ops, home, root);
    if IsGitRepo(fs, ops, expanded) then [ops.abs(expanded)]
    else if expanded !in fs.listing then []
    else ChildRepos(fs, ops, excludes, expanded, fs.listing[expanded])
  }

  /** The repositories of all scan paths, in order, duplicates included. */
  function Found(fs: FileSystem, ops: PathOps, home: Option<Path>, excludes: seq<string>,
                 roots: seq<Path>): seq<Path>
    decreases |roots|
  {
    if |roots| == 0 then []
    else Found(fs, ops, home, excludes, roots[..|roots| - 1]) + RootRepos(fs, ops, home, excludes, roots[|roots| - 1])
  }

  /** Adding the elements of `ps` one by one. */
  function AddAll(st: ScanState, ps: seq<Path>): ScanState
    decreases |ps|
  {
    if |ps| == 0 then st else AddRepo(AddAll(st, ps[..|ps| - 1]), ps[|ps| - 1])
  }

  lemma {:induction false} AddAllAppend(st: ScanState, a: seq<Path>, b: seq<Path>)
    ensures AddAll(st, a + b) == AddAll(AddAll(st, a), b)
    decreases |b|
  {
    if |b| == 0 {
      assert a + b == a;
    } else {
      AppendInit(a, b);
      AddAllAppend(st, a, b[..|b| - 1]);
    }
  }

  /** Adding from the empty state keeps the first occurrences, and `seen`
      is the set of everything added. */
  lemma {:induction false} AddAllIsDedup(ps: seq<Path>)
    ensures AddAll(Empty, ps).repos == Dedup(ps)
    ensures forall p :: p in AddAll(Empty, ps).seen <==> p in ps
    decreases |ps|
  {
    if |ps| > 0 {
      var init, last := ps[..|ps| - 1], ps[|ps| - 1];
      AddAllIsDedup(init);
      assert ps == init + [last];
      AddStep(AddAll(Empty, init), init, last);
    }
  }

  /** One step of `AddAllIsDedup`: the state built from `init` takes `last`. */
  lemma AddStep(st: ScanState, init: seq<Path>, last: Path)
    requires st.repos == Dedup(init)
    requires forall p :: p in st.seen <==> p in init
    ensures AddRepo(st, last).repos == Dedup(init + [last])
    ensures forall p :: p in AddRepo(st, last).seen <==> p in init + [last]
  {
    assert (init + [last])[..|init|] == init;
  }

  /** The loop over the entries adds exactly the child repositories. */
  lemma {:induction false} ScanEntriesAddsChildren(fs: FileSystem, ops: PathOps, excludes: seq<string>,
                                                   dir: Path, st: ScanState, entries: seq<Entry>)
    ensures ScanEntries(fs, ops, excludes, dir, st, entries) == AddAll(st, ChildRepos(fs, ops, excludes, dir, entries))
    decreases |entries|
  {
    if |entries| > 0 {
      var init := entries[..|entries| - 1];
      ScanEntriesAddsChildren(fs, ops, excludes, dir, st, init);
      var front := ChildRepos(fs, ops, excludes, dir, init);
      var entry := entries[|entries| - 1];
      var abs := ops.abs(ops.join(dir, entry.name));
      if entry.isDir && !ShouldExclude(entry.name, excludes) && IsGitRepo(fs, ops, abs) {
        assert (front + [abs])[..|front|] == front;
      }
    }
  }

  lemma ScanRootAddsRootRepos(fs: FileSystem, ops: PathOps, home: Option<Path>, excludes: seq<string>,
                              st: ScanState, root: Path)
    ensures ScanRoot(fs, ops, home, excludes, st, root) == AddAll(st, RootRepos(fs, ops, home, excludes, root))
  {
    var expanded := ExpandHome(ops, home, root);
    if IsGitRepo(fs, ops, expanded) {
      assert [ops.abs(expanded)][..0] == [];
    } else if expanded in fs.listing {
      ScanEntriesAddsChildren(fs, ops, excludes, expanded, st, fs.listing[expanded]);
    }
  }

  lemma {:induction false} ScanRootsAddsFound(fs: FileSystem, ops: PathOps, home: Option<Path>,
                                              excludes: seq<string>, roots: seq<Path>)
    ensures ScanRoots(fs, ops, home, excludes, roots) == AddAll(Empty, Found(fs, ops, home, excludes, roots))
    decreases |roots|
  {
    if |roots| > 0 {
      var init := roots[..|roots| - 1];
      ScanRootsAddsFound(fs, ops, home, excludes, init);
      var before := Found(fs, ops, home, excludes, init);
      var here := RootRepos(fs, ops, home, excludes, roots[|roots| - 1]);
      ScanRootAddsRootRepos(fs, ops, home, excludes, AddAll(Empty, before), roots[|roots| - 1]);
      AddAllAppend(Empty, before, here);
    }
  }

  /** The scan returns the repositories of all scan paths with duplicates
      removed, in the order they are first found. */
  lemma ScanReposIsDedup(fs: FileSystem, ops: PathOps, home: Option<Path>, roots: seq<Path>, excludes: seq<string>)
    ensures ScanRoots(fs, ops, home, excludes, roots).repos == Dedup(Found(fs, ops, home, excludes, roots))
  {
    ScanRootsAddsFound(fs, ops, home, excludes, roots);
    AddAllIsDedup(Found(fs, ops, home, excludes, roots));
  }

  // ---------------------------------------------------------------------
  // Consequences

  lemma {:induction false} FoundAppend(fs: FileSystem, ops: PathOps, home: Option<Path>, excludes: seq<string>,
                                       a: seq<Path>, b: seq<Path>)
    ensures Found(fs, ops, home, excludes, a + b) == Found(fs, ops, home, excludes, a) + Found(fs, ops, home, excludes, b)
    decreases |b|
  {
    if |b| == 0 {
      assert a + b == a;
    } else {
      AppendInit(a, b);
      FoundAppend(fs, ops, home, excludes, a, b[..|b| - 1]);
      Assoc(Found(fs, ops, home, excludes, a), Found(fs, ops, home, excludes, b[..|b| - 1]),
        RootRepos(fs, ops, home, excludes, b[|b| - 1]));
    }
  }

  lemma {:induction false} FoundMembers(fs: FileSystem, ops: PathOps, home: Option<Path>, excludes: seq<string>,
                                        roots: seq<Path>, p: Path)
    ensures p in Found(fs, ops, home, excludes, roots) <==>
      exists i :: 0 <= i < |roots| && p in RootRepos(fs, ops, home, excludes, roots[i])
    decreases |roots|
  {
    if |roots| > 0 {
      var init := roots[..|roots| - 1];
      FoundMembers(fs, ops, home, excludes, init, p);
      assert forall i :: 0 <= i < |init| ==> roots[i] == init[i];
    }
  }

  /** A path is returned exactly when some scan path contributes it. */
  lemma ScanReposMembers(fs: FileSystem, ops: PathOps, home: Option<Path>, roots: seq<Path>,
                         excludes: seq<string>, p: Path)
    ensures p in ScanRepos(fs, ops, home, roots, excludes).value <==>
      exists i :: 0 <= i < |roots| && p in RootRepos(fs, ops, home, excludes, roots[i])
  {
    ScanReposIsDedup(fs, ops, home, roots, excludes);
    var found := Found(fs, ops, home, excludes, roots);
    var r := Dedup(found);
    assert p in r <==> p in found by {
      if p in r {
        var k :| 0 <= k < |r| && r[k] == p;
      }
      if p in found {
        var k :| 0 <= k < |found| && found[k] == p;
      }
    }
    FoundMembers(fs, ops, home, excludes, roots, p);
  }

  /** Results keep the order in which the scan paths first contribute them. */
  lemma ScanReposOrder(fs: FileSystem, ops: PathOps, home: Option<Path>, roots: seq<Path>, excludes: seq<string>)
    ensures var found := Found(fs, ops, home, excludes, roots);
      Subsequence(ScanRepos(fs, ops, home, roots, excludes).value, found)
      && SeenInOrder(ScanRepos(fs, ops, home, roots, excludes).value, found)
  {
    ScanReposIsDedup(fs, ops, home, roots, excludes);
    DedupIsSubsequence(Found(fs, ops, home, excludes, roots));
    DedupFirstSeen(Found(fs, ops, home, excludes, roots));
  }

  /** Every scan path contributes its own absolute path when it is a
      repository, and otherwise only absolute paths of its immediate
      subdirectories: the scan never goes deeper than one level. */
  lemma RootReposShape(fs: FileSystem, ops: PathOps, home: Option<Path>, excludes: seq<string>, root: Path, p: Path)
    requires p in RootRepos(fs, ops, home, excludes, root)
    ensures var expanded := ExpandHome(ops, home, root);
      || (IsGitRepo(fs, ops, expanded) && p == ops.abs(expanded))
      || (expanded in fs.listing && IsGitRepo(fs, ops, p) &&
          exists k :: 0 <= k < |fs.listing[expanded]| && fs.listing[expanded][k].isDir
            && !ShouldExclude(fs.listing[expanded][k].name, excludes)
            && p == ops.abs(ops.join(expanded, fs.listing[expanded][k].name)))
  {
  }

  /** A scan path that is itself a repository contributes only itself,
      whatever its directory holds. */
  lemma RepositoryRootNotDescended(fs: FileSystem, ops: PathOps, home: Option<Path>, excludes: seq<string>,
                                   root: Path, entries: seq<Entry>)
    requires IsGitRepo(fs, ops, ExpandHome(ops, home, root))
    ensures RootRepos(fs, ops, home, excludes, root) == [ops.abs(ExpandHome(ops, home, root))]
    ensures var expanded := ExpandHome(ops, home, root);
      var fs' := fs.(listing := fs.listing[expanded := entries]);
      RootRepos(fs', ops, home, excludes, root) == RootRepos(fs, ops, home, excludes, root)
  {
  }

  /** Exclusion never applies to a scan path: a repository given as a scan
      path is returned even when its name is hidden or excluded. */
  lemma RootNeverExcluded(fs: FileSystem, ops: PathOps, home: Option<Path>, roots: seq<Path>,
                          excludes: seq<string>, i: nat)
    requires i < |roots| && IsGitRepo(fs, ops, ExpandHome(ops, home, roots[i]))
    ensures ops.abs(ExpandHome(ops, home, roots[i])) in ScanRepos(fs, ops, home, roots, excludes).value
  {
    ScanReposMembers(fs, ops, home, roots, excludes, ops.abs(ExpandHome(ops, home, roots[i])));
  }

  /** A scan path that is neither a repository nor a readable directory
      contributes nothing: removing it leaves the result unchanged. */
  lemma UnreadableRootIgnored(fs: FileSystem, ops: PathOps, home: Option<Path>, a: seq<Path>, root: Path,
                              b: seq<Path>, excludes: seq<string>)
    requires var expanded := ExpandHome(ops, home, root);
      !IsGitRepo(fs, ops, expanded) && expanded !in fs.listing
    ensures ScanRepos(fs, ops, home, a + [root] + b, excludes) == ScanRepos(fs, ops, home, a + b, excludes)
  {
    ScanReposIsDedup(fs, ops, home, a + [root] + b, excludes);
    ScanReposIsDedup(fs, ops, home, a + b, excludes);
    FoundWithout(fs, ops, home, excludes, a, root, b);
  }

  lemma FoundWithout(fs: FileSystem, ops: PathOps, home: Option<Path>, excludes: seq<string>,
                     a: seq<Path>, root: Path, b: seq<Path>)
    requires RootRepos(fs, ops, home, excludes, root) == []
    ensures Found(fs, ops, home, excludes, a + [root] + b) == Found(fs, ops, home, excludes, a + b)
  {
    FoundAppend(fs, ops, home, excludes, a + [root], b);
    FoundAppend(fs, ops, home, excludes, a, [root]);
    FoundAppend(fs, ops, home, excludes, a, b);
    assert [root][..0] == [];
    var fa := Found(fs, ops, home, excludes, a);
    assert Found(fs, ops, home, excludes, [root]) == [];
    AppendEmpty(fa);
    assert Found(fs, ops, home, excludes, a + [root]) == fa;
  }
}

=== FILE: Seqs.dfy ===
/** Generic facts about sequences used by several parts of the model. */
module Seqs {

  /** `xs` is `ys` with some elements left out, the rest in order. */
  predicate Subsequence<T(==)>(xs: seq<T>, ys: seq<T>)
    decreases |ys|
  {
    if |xs| == 0 then true
    else if |ys| == 0 then false
    else if xs[|xs| - 1] == ys[|ys| - 1] then Subsequence(xs[..|xs| - 1], ys[..|ys| - 1])
    else Subsequence(xs, ys[..|ys| - 1])
  }

  lemma SubsequenceExtend<T>(xs: seq<T>, ys: seq<T>, y: T)
    requires Subsequence(xs, ys)
    ensures Subsequence(xs + [y], ys + [y])
  {
    assert (xs + [y])[..|xs|] == xs;
    assert (ys + [y])[..|ys|] == ys;
  }

  lemma {:induction false} SubsequenceSkip<T>(xs: seq<T>, ys: seq<T>, y: T)
    requires Subsequence(xs, ys)
    ensures Subsequence(xs, ys + [y])
    decreases |ys|, 1
  {
    assert (ys + [y])[..|ys|] == ys;
    if |xs| > 0 && xs[|xs| - 1] == y {
      SubsequenceDropLast(xs, ys);
    }
  }

  lemma {:induction false} SubsequenceDropLast<T>(xs: seq<T>, ys: seq<T>)
    requires |xs| > 0 && Subsequence(xs, ys)
    ensures Subsequence(xs[..|xs| - 1], ys)
    decreases |ys|, 0
  {
    var init, front := xs[..|xs| - 1], ys[..|ys| - 1];
    if xs[|xs| - 1] != ys[|ys| - 1] {
      SubsequenceDropLast(xs, front);
    }
    SubsequenceSkip(init, front, ys[|ys| - 1]);
    assert front + [ys[|ys| - 1]] == ys;
  }

  predicate NoDuplicates<T(==)>(s: seq<T>) {
    forall i, j :: 0 <= i < j < |s| ==> s[i] != s[j]
  }

  /** The elements of `s` in the order they are first seen, each once. */
  function Dedup<T(==)>(s: seq<T>): (r: seq<T>)
    ensures NoDuplicates(r)
    ensures forall k :: 0 <= k < |s| ==> s[k] in r
    ensures forall k :: 0 <= k < |r| ==> r[k] in s
    decreases |s|
  {
    if |s| == 0 then []
    else
      var init, last := s[..|s| - 1], s[|s| - 1];
      assert s == init + [last];
      if last in init then Dedup(init) else Dedup(init) + [last]
  }

  /** Deduplication only leaves elements out. */
  lemma {:induction false} DedupIsSubsequence<T>(s: seq<T>)
    ensures Subsequence(Dedup(s), s)
    decreases |s|
  {
    if |s| > 0 {
      var init, last := s[..|s| - 1], s[|s| - 1];
      DedupIsSubsequence(init);
      assert s == init + [last];
      if last in init {
        SubsequenceSkip(Dedup(init), init, last);
      } else {
        SubsequenceExtend(Dedup(init), init, last);
      }
    }
  }

  /** Of two elements of `r`, the earlier one occurs in `s` before every
      occurrence of the later one. */
  predicate SeenInOrder<T(==)>(r: seq<T>, s: seq<T>) {
    forall i, j, k :: 0 <= i < j < |r| && 0 <= k < |s| && s[k] == r[j] ==> r[i] in s[..k]
  }

  /** Deduplication keeps elements in the order they are first seen. */
  lemma {:induction false} DedupFirstSeen<T>(s: seq<T>)
    ensures SeenInOrder(Dedup(s), s)
    decreases |s|
  {
    if |s| > 0 {
      var init, last := s[..|s| - 1], s[|s| - 1];
      DedupFirstSeen(init);
      var d, r := Dedup(init), Dedup(s);
      forall i, j, k | 0 <= i < j < |r| && 0 <= k < |s| && s[k] == r[j]
        ensures r[i] in s[..k]
      {
        assert r[i] == d[i] && r[i] in init;
        if k < |init| {
          assert s[..k] == init[..k];
          assert init[k] == d[j];
          assert d[i] in init[..k];
        } else {
          assert s[..k] == init;
        }
      }
    }
  }

  /** The blocks of `ss` one after the other. */
  function Flatten<T>(ss: seq<seq<T>>): seq<T>
    decreases |ss|
  {
    if |ss| == 0 then [] else Flatten(ss[..|ss| - 1]) + ss[|ss| - 1]
  }

  lemma {:induction false} FlattenAppend<T>(a: seq<seq<T>>, b: seq<seq<T>>)
    ensures Flatten(a + b) == Flatten(a) + Flatten(b)
    decreases |b|
  {
    if |b| == 0 {
      assert a + b == a;
    } else {
      assert (a + b)[..|a + b| - 1] == a + b[..|b| - 1];
      FlattenAppend(a, b[..|b| - 1]);
    }
  }

  /** Where block `i` starts in the flattened sequence. */
  function Offset<T>(ss: seq<seq<T>>, i: nat): nat
    requires i <= |ss|
  {
    |Flatten(ss[..i])|
  }

  /** Element `k` of block `i` is found at the block's offset plus `k`. */
  lemma FlattenAt<T>(ss: seq<seq<T>>, i: nat, k: nat)
    requires i < |ss| && k < |ss[i]|
    ensures Offset(ss, i) + k < |Flatten(ss)|
    ensures Flatten(ss)[Offset(ss, i) + k] == ss[i][k]
  {
    var before, after := ss[..i], ss[i + 1..];
    assert ss == before + [ss[i]] + after;
    FlattenAppend(before + [ss[i]], after);
    FlattenAppend(before, [ss[i]]);
    assert [ss[i]][..0] == [];
    assert Flatten([ss[i]]) == ss[i];
  }

  /** The offset of the next block is the offset of this one plus its
      length. */
  lemma OffsetNext<T>(ss: seq<seq<T>>, i: nat)
    requires i < |ss|
    ensures Offset(ss, i + 1) == Offset(ss, i) + |ss[i]|
  {
    assert ss[..i + 1][..i] == ss[..i];
  }

  /** Dropping the last element of `a + b` drops the last element of `b`. */
  lemma AppendInit<T>(a: seq<T>, b: seq<T>)
    requires |b| > 0
    ensures (a + b)[..|a + b| - 1] == a + b[..|b| - 1]
    ensures (a + b)[|a + b| - 1] == b[|b| - 1]
  {
  }

  lemma AppendEmpty<T>(a: seq<T>)
    ensures a + [] == a
  {
  }

  lemma Assoc<T>(a: seq<T>, b: seq<T>, c: seq<T>)
    ensures a + b + c == a + (b + c)
  {
  }

  lemma ConcatIndex<T>(a: seq<T>, b: seq<T>, c: seq<T>, x: nat)
    requires x < |b|
    ensures |a| + x < |a + b + c| && (a + b + c)[|a| + x] == b[x]
  {
  }

  /** `FlattenAt` inside a sequence with a prefix `a` and suffixes `c`, `d`:
      item `k` of part `i` sits at index `at`. */
  lemma FlattenWithin<T>(a: seq<T>, ss: seq<seq<T>>, c: seq<T>, d: seq<T>, i: nat, k: nat, at: nat)
    requires i < |ss| && k < |ss[i]| && at == |a| + Offset(ss, i) + k
    ensures at < |a + Flatten(ss) + c + d| && (a + Flatten(ss) + c + d)[at] == ss[i][k]
  {
    FlattenAt(ss, i, k);
    ConcatIndex(a, Flatten(ss), c + d, Offset(ss, i) + k);
    Associate(a, Flatten(ss), c, d);
  }

  /** `FlattenAt` inside a sequence with a prefix `a` and a suffix `c`. */
  lemma FlattenBetween<T>(a: seq<T>, ss: seq<seq<T>>, c: seq<T>, i: nat, k: nat, at: nat)
    requires i < |ss| && k < |ss[i]| && at == |a| + Offset(ss, i) + k
    ensures at < |a + Flatten(ss) + c| && (a + Flatten(ss) + c)[at] == ss[i][k]
  {
    FlattenAt(ss, i, k);
    ConcatIndex(a, Flatten(ss), c, Offset(ss, i) + k);
  }

  /** A slice of `a + b` that lies within `b`. */
  lemma SliceOfAppend<T>(a: seq<T>, b: seq<T>, i: nat, j: nat)
    requires i <= j <= |b|
    ensures (a + b)[|a| + i..|a| + j] == b[i..j]
    ensures (a + b)[..|a|] == a
  {
    var x, y := (a + b)[|a| + i..|a| + j], b[i..j];
    assert |x| == |y|;
    forall k | 0 <= k < |x| ensures x[k] == y[k] { }
  }

  lemma Associate<T>(a: seq<T>, b: seq<T>, c: seq<T>, d: seq<T>)
    ensures a + b + c + d == a + (b + c + d)
  {
  }
}

=== FILE: Terminal.dfy ===
/** The terminal report as the sequence of lines it prints (styling left
    aside): a title, one block per repository and a line with the totals.
    In compact mode a block shows at most three commits. `Render` gives a
    line's characters. */
module Terminal {
  import opened Wrappers
  import opened Text
  import opened Numbers
  import opened Seqs
  import opened GitLog
  import opened Report
  import Markdown

  /** The width, in bytes, a repository header is padded to. */
  const HeaderWidth: int := 50
  /** The fewest padding characters a header gets. */
  const MinPadding: nat := 3
  /** Commits shown per repository in compact mode. */
  const CompactLimit: nat := 3

  const Rule: string := "━"

  /** The kinds of line the report prints. */
  datatype Line =
    | TitleLine(since: Day)
    | RepoLine(repo: RepoResult)
    | CommitLine(commit: Commit)
    | MoreLine(hidden: int)
    | Blank
    | BarLine(tally: Tally, projects: int)

  /** The repository header before padding. */
  function HeaderText(r: RepoResult): string {
    "━━ " + r.name + " (" + FormatInt(|r.commits|) + " commits) "
  }

  /** How many rule characters follow a header of `h`: what is left of the
      width, but at least three. */
  function Padding(h: string): (p: nat)
    ensures p >= MinPadding
    ensures Utf8Len(h) <= HeaderWidth - MinPadding ==> Utf8Len(h) + p == HeaderWidth
    ensures Utf8Len(h) > HeaderWidth - MinPadding ==> p == MinPadding
  {
    if HeaderWidth - Utf8Len(h) < MinPadding then MinPadding else HeaderWidth - Utf8Len(h)
  }

  /** The padded header: the header text, then nothing but rule characters,
      as many as `Padding` asks for. */
  function RepoHeader(r: RepoResult): (line: string)
    ensures var h := HeaderText(r);
      && HasPrefix(line, h)
      && |line| == |h| + Padding(h)
      && (forall k :: |h| <= k < |line| ==> line[k] == Rule[0])
  {
    var h := HeaderText(r);
    var rules := Repeat(Rule, Padding(h));
    RulesAfter(h, rules);
    h + rules
  }

  lemma RulesAfter(h: string, rules: string)
    requires forall k :: 0 <= k < |rules| ==> rules[k] == Rule[0]
    ensures HasPrefix(h + rules, h)
    ensures forall k :: |h| <= k < |h + rules| ==> (h + rules)[k] == Rule[0]
  {
    assert (h + rules)[..|h|] == h;
  }

  /** Go's printCommit: the short hash and the subject, then the note on
      changed files. */
  function CommitText(c: Commit): string {
    Subject(c) + FilesNote(c.files)
  }

  function Subject(c: Commit): string {
    "  " + c.hash + " " + c.message
  }

  function Bar(t: Tally, projects: int): string {
    "📊 총 " + FormatInt(t.commits) + " commits | " + FormatInt(projects) + "개 프로젝트 | "
      + FormatInt(t.files) + " files changed"
  }

  /** The characters of a line, without its newline. */
  function Render(line: Line): string {
    match line
    case TitleLine(since) => "📅 " + DayTitle(since)
    case RepoLine(r) => RepoHeader(r)
    case CommitLine(c) => CommitText(c)
    case MoreLine(k) => "  ... +" + FormatInt(k) + " more"
    case Blank => ""
    case BarLine(t, projects) => Bar(t, projects)
  }

  /** The commits a block shows: the first three in compact mode, all of
      them otherwise. */
  function Shown(cs: seq<Commit>, compact: bool): seq<Commit> {
    if compact && |cs| > CompactLimit then cs[..CompactLimit] else cs
  }

  function MoreLines(cs: seq<Commit>, compact: bool): seq<Line> {
    if compact && |cs| > CompactLimit then [MoreLine(|cs| - CompactLimit)] else []
  }

  function CommitLines(cs: seq<Commit>): seq<Line> {
    seq(|cs|, k requires 0 <= k < |cs| => CommitLine(cs[k]))
  }

  /** One repository: its header, its commit lines, the "more" line in
      compact mode, and a blank line. */
  function Block(r: RepoResult, compact: bool): seq<Line> {
    [RepoLine(r)] + CommitLines(Shown(r.commits, compact)) + MoreLines(r.commits, compact) + [Blank]
  }

  function Blocks(results: seq<RepoResult>, compact: bool): seq<seq<Line>> {
    seq(|results|, i requires 0 <= i < |results| => Block(results[i], compact))
  }

  /** The lines of the report, in order. The totals are the running totals
      of the program's loop. */
  function ReportLines(results: seq<RepoResult>, since: Day, compact: bool): seq<Line> {
    [TitleLine(since), Blank] + Flatten(Blocks(results, compact)) + [BarLine(RunningTally(results), |results|)]
  }

  /** Go's PrintReport: the text of the lines it prints; `until` is not
      used. */
  function PrintReport(results: seq<RepoResult>, since: Day, until: Day, compact: bool): (printed: seq<string>)
    ensures |printed| == |ReportLines(results, since, compact)| >= 3
    ensures printed[0] == "📅 " + DayTitle(since) && printed[1] == ""
    ensures printed[|printed| - 1] == Bar(Totals(results), |results|)
  {
    ReportEnds(results, since, compact);
    Texts(ReportLines(results, since, compact))
  }

  function Texts(lines: seq<Line>): seq<string> {
    seq(|lines|, j requires 0 <= j < |lines| => Render(lines[j]))
  }

  lemma ReportEnds(results: seq<RepoResult>, since: Day, compact: bool)
    ensures var lines := ReportLines(results, since, compact);
      var printed := Texts(lines);
      && |printed| == |lines| >= 3
      && printed[0] == "📅 " + DayTitle(since) && printed[1] == ""
      && printed[|printed| - 1] == Bar(Totals(results), |results|)
  {
    var lines := ReportLines(results, since, compact);
    var printed := Texts(lines);
    assert lines[0] == TitleLine(since) && lines[1] == Blank;
    assert lines[|lines| - 1] == BarLine(RunningTally(results), |results|);
    RunningTallyIsTotal(results);
    assert printed[0] == Render(lines[0]);
    assert printed[1] == Render(lines[1]);
    assert printed[|printed| - 1] == Render(lines[|lines| - 1]);
  }

  // ---------------------------------------------------------------------
  // What the report holds

  /** The header is padded with at least three rule characters, each three
      bytes long; a header that leaves room is padded up to 50 bytes counting
      each rule character as one. */
  lemma HeaderPadding(r: RepoResult)
    ensures var h, p := HeaderText(r), Padding(HeaderText(r));
      && p >= MinPadding
      && RepoHeader(r) == h + Repeat(Rule, p)
      && Utf8Len(RepoHeader(r)) == Utf8Len(h) + 3 * p
      && (Utf8Len(h) <= HeaderWidth - MinPadding ==> Utf8Len(h) + p == HeaderWidth)
      && (Utf8Len(h) > HeaderWidth - MinPadding ==> p == MinPadding)
  {
    var h := HeaderText(r);
    assert Utf8Len(Rule) == 3 by {
      assert Rule[1..] == [];
    }
    Utf8LenAppend(h, Repeat(Rule, Padding(h)));
  }

  /** A block shows `min(n, 3)` commits in compact mode and all `n`
      otherwise, always the first ones and in order; the "... +k more" line
      with k = n - 3 appears exactly in compact mode with more than three
      commits. */
  lemma BlockCommits(r: RepoResult, compact: bool)
    ensures var n, shown := |r.commits|, Shown(r.commits, compact);
      && |shown| == (if compact && n > CompactLimit then CompactLimit else n)
      && shown <= r.commits
      && MoreLines(r.commits, compact) == (if compact && n > CompactLimit then [MoreLine(n - CompactLimit)] else [])
      && |Block(r, compact)| == |shown| + |MoreLines(r.commits, compact)| + 2
  {
  }

  /** Line `x` of the block of `results[i]` is line
      `BlockStart(results, compact, i) + x` of the report; blocks follow
      the order of the results. */
  function BlockStart(results: seq<RepoResult>, compact: bool, i: nat): nat
    requires i <= |results|
  {
    2 + Offset(Blocks(results, compact), i)
  }

  lemma ReportBlockAt(results: seq<RepoResult>, since: Day, compact: bool, i: nat, x: nat)
    requires i < |results| && x < |Block(results[i], compact)|
    ensures var lines, at := ReportLines(results, since, compact), BlockStart(results, compact, i);
      at + x < |lines| && lines[at + x] == Block(results[i], compact)[x]
    ensures BlockStart(results, compact, i + 1) == BlockStart(results, compact, i) + |Block(results[i], compact)|
  {
    OffsetNext(Blocks(results, compact), i);
    ReportLine(results, since, compact, i, x, BlockStart(results, compact, i) + x);
  }

  /** Each block starts with the repository's header, followed by the lines
      of the commits it shows. */
  lemma ReportHeaderAt(results: seq<RepoResult>, since: Day, compact: bool, i: nat)
    requires i < |results|
    ensures var lines, at := ReportLines(results, since, compact), BlockStart(results, compact, i);
      at < |lines| && lines[at] == RepoLine(results[i])
  {
    ReportLine(results, since, compact, i, 0, BlockStart(results, compact, i));
  }

  lemma ReportCommitAt(results: seq<RepoResult>, since: Day, compact: bool, i: nat, k: nat)
    requires i < |results| && k < |Shown(results[i].commits, compact)|
    ensures var lines, at := ReportLines(results, since, compact), BlockStart(results, compact, i);
      at + 1 + k < |lines| && lines[at + 1 + k] == CommitLine(results[i].commits[k])
  {
    BlockCommitAt(results[i], compact, k);
    ReportLine(results, since, compact, i, 1 + k, BlockStart(results, compact, i) + 1 + k);
  }

  lemma ReportLine(results: seq<RepoResult>, since: Day, compact: bool, i: nat, x: nat, at: nat)
    requires i < |results| && x < |Block(results[i], compact)| && at == BlockStart(results, compact, i) + x
    ensures var lines := ReportLines(results, since, compact);
      at < |lines| && lines[at] == Block(results[i], compact)[x]
  {
    assert Blocks(results, compact)[i] == Block(results[i], compact);
    FlattenBetween([TitleLine(since), Blank], Blocks(results, compact),
      [BarLine(RunningTally(results), |results|)], i, x, at);
  }

  /** Commit line `k` of a block is the `k`-th commit. */
  lemma BlockCommitAt(r: RepoResult, compact: bool, k: nat)
    requires k < |Shown(r.commits, compact)|
    ensures 1 + k < |Block(r, compact)| && Block(r, compact)[1 + k] == CommitLine(r.commits[k])
  {
    var shown := Shown(r.commits, compact);
    ConcatIndex([RepoLine(r)], CommitLines(shown), MoreLines(r.commits, compact) + [Blank], k);
    Associate([RepoLine(r)], CommitLines(shown), MoreLines(r.commits, compact), [Blank]);
  }

  /** A commit line shows the short hash and subject, then the note
      " (k files)" exactly when the commit changed files. */
  lemma CommitFiles(c: Commit)
    ensures Render(CommitLine(c)) == CommitText(c)
    ensures EndsWithNote(Subject(c), CommitText(c), c.files)
  {
    var plain, note := Subject(c), FilesNote(c.files);
    assert CommitText(c) == plain + note;
    NoteAfter(plain, c.files);
  }

  /** The block of `results[i]` starts with the padded header of the
      repository. */
  lemma PrintedHeader(results: seq<RepoResult>, since: Day, until: Day, compact: bool, i: nat)
    requires i < |results|
    ensures var printed, at := PrintReport(results, since, until, compact), BlockStart(results, compact, i);
      at < |printed| && printed[at] == RepoHeader(results[i])
  {
    var lines, at := ReportLines(results, since, compact), BlockStart(results, compact, i);
    ReportHeaderAt(results, since, compact, i);
    TextAt(lines, at);
  }

  /** Then it prints the text of each commit it shows, in order. */
  lemma PrintedCommit(results: seq<RepoResult>, since: Day, until: Day, compact: bool, i: nat, k: nat)
    requires i < |results| && k < |Shown(results[i].commits, compact)|
    ensures BlockStart(results, compact, i) + 1 + k < |PrintReport(results, since, until, compact)|
    ensures PrintReport(results, since, until, compact)[BlockStart(results, compact, i) + 1 + k]
      == CommitText(results[i].commits[k])
  {
    ReportCommitAt(results, since, compact, i, k);
    CommitPrintedAt(results, since, until, compact, BlockStart(results, compact, i) + 1 + k, results[i].commits[k]);
  }

  lemma CommitPrintedAt(results: seq<RepoResult>, since: Day, until: Day, compact: bool, j: nat, c: Commit)
    requires j < |ReportLines(results, since, compact)| && ReportLines(results, since, compact)[j] == CommitLine(c)
    ensures j < |PrintReport(results, since, until, compact)| && PrintReport(results, since, until, compact)[j] == CommitText(c)
  {
  }

  lemma TextAt(lines: seq<Line>, j: nat)
    requires j < |lines|
    ensures |Texts(lines)| == |lines|
    ensures lines[j].RepoLine? ==> Texts(lines)[j] == RepoHeader(lines[j].repo)
    ensures lines[j].CommitLine? ==> Texts(lines)[j] == CommitText(lines[j].commit)
  {
  }

  /** The last line counts all commits and files whether or not the report
      is compact, with the same counts as the Markdown footer. */
  lemma ReportFooter(results: seq<RepoResult>, since: Day, compact: bool, summary: string)
    ensures var lines := ReportLines(results, since, compact);
      lines[|lines| - 1] == BarLine(Totals(results), |results|)
    ensures var doc := Markdown.DocumentLines(results, since, summary);
      var at := |doc| - if summary == "" then 1 else 5;
      0 <= at < |doc| && doc[at] == Markdown.Footer(Totals(results), |results|)
  {
    RunningTallyIsTotal(results);
    Markdown.MarkdownEnd(results, since, summary);
  }
}

=== FILE: Text.dfy ===
/** The small piece of Go's `strings` package the program relies on, over
    strings of Unicode scalar values. Go strings are byte strings; where the
    program measures or cuts bytes, `Utf8Len` gives the UTF-8 byte length. */
module Text {
  import opened Wrappers

  // ---------------------------------------------------------------------
  // UTF-8 byte length

  /** Number of bytes UTF-8 uses for `c`. */
  function Utf8Width(c: char): nat {
    if c as int < 0x80 then 1
    else if c as int < 0x800 then 2
    else if c as int < 0x10000 then 3
    else 4
  }

  /** Go's `len` of the UTF-8 encoding of `s`. */
  function Utf8Len(s: string): nat {
    if |s| == 0 then 0 else Utf8Width(s[0]) + Utf8Len(s[1..])
  }

  predicate IsAscii(s: string) {
    forall k :: 0 <= k < |s| ==> s[k] as int < 0x80
  }

  lemma {:induction false} Utf8LenAppend(a: string, b: string)
    ensures Utf8Len(a + b) == Utf8Len(a) + Utf8Len(b)
    decreases |a|
  {
    if |a| > 0 {
      assert (a + b)[1..] == a[1..] + b;
      Utf8LenAppend(a[1..], b);
    } else {
      assert a + b == b;
    }
  }

  /** On ASCII text bytes and characters coincide. */
  lemma {:induction false} Utf8LenAscii(s: string)
    requires IsAscii(s)
    ensures Utf8Len(s) == |s|
    decreases |s|
  {
    if |s| > 0 {
      assert IsAscii(s[1..]) by {
        forall k | 0 <= k < |s[1..]| ensures s[1..][k] as int < 0x80 {
          assert s[1..][k] == s[k + 1];
        }
      }
      Utf8LenAscii(s[1..]);
    }
  }

  /** The longest prefix of `s` whose encoding fits in `n` bytes. */
  function TakeBytes(s: string, n: nat): (r: string)
    ensures r <= s
    ensures Utf8Len(r) <= n
    ensures |r| < |s| ==> Utf8Len(s[..|r| + 1]) > n
    decreases |s|
  {
    if |s| == 0 || Utf8Width(s[0]) > n then
      assert |s| > 0 ==> Utf8Len(s[..1]) == Utf8Width(s[0]) by {
        if |s| > 0 { assert s[..1][1..] == []; }
      }
      []
    else
      var rest := TakeBytes(s[1..], n - Utf8Width(s[0]));
      assert ([s[0]] + rest)[1..] == rest;
      assert |rest| < |s[1..]| ==> s[..|rest| + 2][1..] == s[1..][..|rest| + 1];
      [s[0]] + rest
  }

  // ---------------------------------------------------------------------
  // White space, as Go's unicode.IsSpace defines it

  predicate IsSpace(c: char) {
    ('\t' <= c <= '\r') || c == ' ' || ('\U{0085}' <= c && IsWideSpace(c))
  }

  /** The white space characters outside ASCII. */
  predicate IsWideSpace(c: char) {
    c == '\U{0085}' || c == '\U{00A0}' || c == '\U{1680}'
    || ('\U{2000}' <= c <= '\U{200A}')
    || c == '\U{2028}' || c == '\U{2029}' || c == '\U{202F}' || c == '\U{205F}' || c == '\U{3000}'
  }

  predicate AllSpace(s: string) {
    forall k :: 0 <= k < |s| ==> IsSpace(s[k])
  }

  /** `s` without its leading white space. */
  function TrimLeft(s: string): (r: string)
    ensures |r| <= |s| && r == s[|s| - |r|..]
    ensures AllSpace(s[..|s| - |r|])
    ensures |r| > 0 ==> !IsSpace(r[0])
    decreases |s|
  {
    if |s| > 0 && IsSpace(s[0]) then
      var r := TrimLeft(s[1..]);
      assert s[..|s| - |r|] == [s[0]] + s[1..][..|s[1..]| - |r|];
      r
    else s
  }

  /** `s` without its trailing white space. */
  function TrimRight(s: string): (r: string)
    ensures |r| <= |s| && r == s[..|r|]
    ensures AllSpace(s[|r|..])
    ensures |r| > 0 ==> !IsSpace(r[|r| - 1])
    decreases |s|
  {
    if |s| > 0 && IsSpace(s[|s| - 1]) then
      var r := TrimRight(s[..|s| - 1]);
      assert s[|r|..] == s[..|s| - 1][|r|..] + [s[|s| - 1]];
      r
    else s
  }

  /** Go's strings.TrimSpace: `s` without the white space at either end. */
  function TrimSpace(s: string): string {
    TrimRight(TrimLeft(s))
  }

  /** Where the trimmed text starts in `s`. */
  function TrimStart(s: string): (i: nat)
    ensures i <= |s|
  {
    |s| - |TrimLeft(s)|
  }

  /** Trimming removes exactly the white space at both ends: what is left is
      the slice of `s` between two runs of white space. */
  lemma TrimSpaceSlice(s: string)
    ensures var r, i := TrimSpace(s), TrimStart(s);
      i + |r| <= |s| && r == s[i..i + |r|] && AllSpace(s[..i]) && AllSpace(s[i + |r|..])
  {
    var l := TrimLeft(s);
    var r := TrimRight(l);
    var i := |s| - |l|;
    SliceOfSuffix(s, i, |r|);
    assert r == s[i..i + |r|];
    assert s[i + |r|..] == l[|r|..];
  }

  /** What is left begins and ends with non-space. */
  lemma TrimSpaceEnds(s: string)
    ensures var r := TrimSpace(s);
      |r| > 0 ==> !IsSpace(r[0]) && !IsSpace(r[|r| - 1])
  {
    var l := TrimLeft(s);
    var r := TrimRight(l);
    if |r| > 0 {
      assert r[0] == l[0];
    }
  }

  /** Nothing is left exactly when `s` is all white space. */
  lemma TrimSpaceBlank(s: string)
    ensures TrimSpace(s) == [] <==> AllSpace(s)
  {
    var l := TrimLeft(s);
    var r := TrimRight(l);
    var i := |s| - |l|;
    if r == [] {
      assert AllSpace(l) by { assert l[|r|..] == l; }
      assert s == s[..i] + l;
    } else {
      assert l[0] == r[0];
      assert s[i] == l[0];
      assert !AllSpace(s);
    }
  }

  lemma SliceOfSuffix(s: string, i: nat, n: nat)
    requires i + n <= |s|
    ensures s[i..][..n] == s[i..i + n]
    ensures s[i..][n..] == s[i + n..]
  {
    var a, b := s[i..][..n], s[i..i + n];
    assert |a| == |b|;
    forall k | 0 <= k < |a| ensures a[k] == b[k] { }
    var c, d := s[i..][n..], s[i + n..];
    assert |c| == |d|;
    forall k | 0 <= k < |c| ensures c[k] == d[k] { }
  }

  // ---------------------------------------------------------------------
  // Substrings

  /** Go's strings.HasPrefix. */
  predicate HasPrefix(s: string, prefix: string) {
    prefix <= s
  }

  /** `sub` occurs in `s` starting at index `i`. */
  predicate OccursAt(s: string, sub: string, i: int) {
    0 <= i && i + |sub| <= |s| && s[i..i + |sub|] == sub
  }

  lemma SliceOfTail(s: string, i: int, j: int)
    requires 1 <= i <= j <= |s|
    ensures s[i..j] == s[1..][i - 1..j - 1]
  {
    var a, b := s[i..j], s[1..][i - 1..j - 1];
    assert |a| == |b|;
    forall k | 0 <= k < |a| ensures a[k] == b[k] { }
  }

  lemma SliceOfPrefix(s: string, n: int, i: int, j: int)
    requires 0 <= i <= j <= n <= |s|
    ensures s[..n][i..j] == s[i..j]
  {
    var a, b := s[..n][i..j], s[i..j];
    assert |a| == |b|;
    forall k | 0 <= k < |a| ensures a[k] == b[k] { }
  }

  /** Go's strings.Index: the first occurrence of `sub` in `s`. */
  function IndexOf(s: string, sub: string): (r: Option<nat>)
    ensures r.Some? ==> OccursAt(s, sub, r.value)
    decreases |s|
  {
    if |s| < |sub| then None
    else if s[..|sub|] == sub then Some(0)
    else
      match IndexOf(s[1..], sub)
      case None => None
      case Some(j) =>
        SliceOfTail(s, j + 1, j + 1 + |sub|);
        Some(j + 1)
  }

  /** Go's strings.Contains. */
  predicate Contains(s: string, sub: string) {
    IndexOf(s, sub).Some?
  }

  /** `sub` is contained in `s` exactly when it occurs somewhere in it. */
  lemma ContainsOccurrence(s: string, sub: string)
    ensures Contains(s, sub) <==> exists k :: OccursAt(s, sub, k)
  {
    IndexOfIsFirst(s, sub);
  }

  /** IndexOf finds the first occurrence, and finds one whenever there is one. */
  lemma {:induction false} IndexOfIsFirst(s: string, sub: string)
    ensures IndexOf(s, sub).None? ==> forall k :: !OccursAt(s, sub, k)
    ensures IndexOf(s, sub).Some? ==> forall k :: 0 <= k < IndexOf(s, sub).value ==> !OccursAt(s, sub, k)
    decreases |s|
  {
    if |s| >= |sub| && s[..|sub|] != sub {
      IndexOfIsFirst(s[1..], sub);
      forall k | 1 <= k && k + |sub| <= |s|
        ensures OccursAt(s, sub, k) ==> OccursAt(s[1..], sub, k - 1)
      {
        SliceOfTail(s, k, k + |sub|);
      }
    }
  }

  lemma OccurrenceIsFound(s: string, sub: string, i: int)
    requires OccursAt(s, sub, i)
    ensures Contains(s, sub)
  {
    IndexOfIsFirst(s, sub);
  }

  /** An occurrence inside one part of a concatenation is an occurrence in
      the whole. */
  lemma ContainsInConcat(a: string, b: string, c: string, sub: string)
    requires Contains(b, sub)
    ensures Contains(a + b + c, sub)
  {
    var i := IndexOf(b, sub).value;
    assert (a + b + c)[|a| + i..|a| + i + |sub|] == b[i..i + |sub|];
    OccurrenceIsFound(a + b + c, sub, |a| + i);
  }

  lemma ContainsSelf(s: string)
    ensures Contains(s, s)
  {
    OccurrenceIsFound(s, s, 0);
  }

  // ---------------------------------------------------------------------
  // Splitting and joining

  /** Joins `parts` with `sep` between consecutive elements. */
  function JoinWith(parts: seq<string>, sep: string): string
    decreases |parts|
  {
    if |parts| == 0 then ""
    else if |parts| == 1 then parts[0]
    else parts[0] + sep + JoinWith(parts[1..], sep)
  }

  lemma JoinCons(head: string, rest: seq<string>, sep: string)
    requires |rest| >= 1
    ensures JoinWith([head] + rest, sep) == head + sep + JoinWith(rest, sep)
  {
    assert ([head] + rest)[1..] == rest;
  }

  lemma ThreeSlices(s: string, i: nat, j: nat)
    requires i <= j <= |s|
    ensures s == s[..i] + s[i..j] + s[j..]
  {
    assert s[..j] == s[..i] + s[i..j];
    assert s == s[..j] + s[j..];
  }

  /** Go's strings.Split for a non-empty separator: the pieces between
      successive leftmost non-overlapping occurrences of `sep`. Joining the
      pieces with `sep` gives `s` back. */
  function Split(s: string, sep: string): (parts: seq<string>)
    requires |sep| > 0
    ensures |parts| >= 1
    ensures JoinWith(parts, sep) == s
    ensures |parts| == 1 <==> !Contains(s, sep)
    decreases |s|
  {
    match IndexOf(s, sep)
    case None => [s]
    case Some(i) =>
      var rest := Split(s[i + |sep|..], sep);
      ThreeSlices(s, i, i + |sep|);
      JoinCons(s[..i], rest, sep);
      [s[..i]] + rest
  }

  /** Every piece but the last, followed by `sep`, has its first
      occurrence of `sep` right after the piece. */
  predicate CutsLeftmost(parts: seq<string>, sep: string) {
    forall k :: 0 <= k < |parts| - 1 ==> IndexOf(parts[k] + sep, sep) == Some(|parts[k]|)
  }

  /** Every cut of a split is at the leftmost occurrence of `sep`. */
  lemma {:induction false} SplitCutsLeftmost(s: string, sep: string)
    requires |sep| > 0
    ensures CutsLeftmost(Split(s, sep), sep)
    decreases |s|
  {
    match IndexOf(s, sep)
    case None =>
    case Some(i) =>
      var tail := s[i + |sep|..];
      SplitCutsLeftmost(tail, sep);
      FirstCut(s, sep, i);
      CutsCons(s[..i], Split(tail, sep), sep);
  }

  lemma CutsCons(head: string, rest: seq<string>, sep: string)
    requires IndexOf(head + sep, sep) == Some(|head|)
    requires CutsLeftmost(rest, sep)
    ensures CutsLeftmost([head] + rest, sep)
  {
    var parts := [head] + rest;
    forall k | 0 <= k < |parts| - 1
      ensures IndexOf(parts[k] + sep, sep) == Some(|parts[k]|)
    {
      if k > 0 { assert parts[k] == rest[k - 1]; }
    }
  }

  /** The text up to the first occurrence of `sep`, followed by `sep`, has
      its first occurrence at that same place. */
  lemma FirstCut(s: string, sep: string, i: nat)
    requires |sep| > 0 && IndexOf(s, sep) == Some(i)
    ensures IndexOf(s[..i] + sep, sep) == Some(i)
  {
    IndexOfIsFirst(s, sep);
    var n := i + |sep|;
    forall k | 0 <= k <= i ensures OccursAt(s[..n], sep, k) <==> OccursAt(s, sep, k) {
      SliceOfPrefix(s, n, k, k + |sep|);
    }
    IndexOfAt(s[..n], sep, i);
    CutPrefix(s, sep, i);
  }

  lemma IndexOfAt(t: string, sub: string, i: nat)
    requires OccursAt(t, sub, i)
    requires forall k :: 0 <= k < i ==> !OccursAt(t, sub, k)
    ensures IndexOf(t, sub) == Some(i)
  {
    IndexOfIsFirst(t, sub);
  }

  lemma CutPrefix(s: string, sub: string, i: nat)
    requires OccursAt(s, sub, i)
    ensures s[..i] + sub == s[..i + |sub|]
  {
    assert s[..i + |sub|] == s[..i] + s[i..i + |sub|];
  }

  /** No piece of a split holds the separator. */
  lemma {:induction false} SplitPiecesFree(s: string, sep: string)
    requires |sep| > 0
    ensures forall k :: 0 <= k < |Split(s, sep)| ==> !Contains(Split(s, sep)[k], sep)
    decreases |s|
  {
    IndexOfIsFirst(s, sep);
    match IndexOf(s, sep)
    case None =>
    case Some(i) =>
      SplitPiecesFree(s[i + |sep|..], sep);
      var head := s[..i];
      forall k | OccursAt(head, sep, k) ensures OccursAt(s, sep, k) {
        SliceOfPrefix(s, i, k, k + |sep|);
      }
  }

  /** Joining lines that do not hold the one-character separator and
      splitting the result again gives the lines back. */
  lemma {:induction false} SplitJoin(parts: seq<string>, c: char)
    requires |parts| >= 1
    requires forall k :: 0 <= k < |parts| ==> c !in parts[k]
    ensures Split(JoinWith(parts, [c]), [c]) == parts
    decreases |parts|
  {
    if |parts| == 1 {
      NotContained(parts[0], c);
    } else {
      var rest := JoinWith(parts[1..], [c]);
      assert JoinWith(parts, [c]) == parts[0] + [c] + rest;
      SplitJoin(parts[1..], c);
      SplitStep(parts[0], rest, c);
    }
  }

  /** Splitting at the first separator, which follows `head`. */
  lemma SplitStep(head: string, rest: string, c: char)
    requires c !in head
    ensures Split(head + [c] + rest, [c]) == [head] + Split(rest, [c])
  {
    var s := head + [c] + rest;
    forall k | 0 <= k < |head| ensures !OccursAt(s, [c], k) {
      assert s[k..k + 1] == [head[k]];
    }
    assert s[|head|..|head| + 1] == [c];
    IndexOfAt(s, [c], |head|);
    assert s[..|head|] == head;
    assert s[|head| + 1..] == rest;
  }

  lemma NotContained(p: string, c: char)
    requires c !in p
    ensures !Contains(p, [c])
  {
    forall k | 0 <= k && k + 1 <= |p| ensures !OccursAt(p, [c], k) {
      assert p[k..k + 1] == [p[k]];
    }
  }

  /** The first character of a join is that of its first part, and the last
      that of its last part. */
  lemma {:induction false} JoinWithEnds(parts: seq<string>, sep: string)
    requires |parts| >= 1
    ensures var j, a, z := JoinWith(parts, sep), parts[0], parts[|parts| - 1];
      && (|a| > 0 ==> |j| > 0 && j[0] == a[0])
      && (|z| > 0 ==> |j| > 0 && j[|j| - 1] == z[|z| - 1])
    decreases |parts|
  {
    if |parts| > 1 {
      var rest := parts[1..];
      JoinWithEnds(rest, sep);
      assert parts[|parts| - 1] == rest[|rest| - 1];
      var j := JoinWith(parts, sep);
      assert j == parts[0] + sep + JoinWith(rest, sep);
    }
  }

  /** A text with no white space at either end trims to itself. */
  lemma TrimSpaceKeeps(s: string)
    requires |s| > 0 ==> !IsSpace(s[0]) && !IsSpace(s[|s| - 1])
    ensures TrimSpace(s) == s
  {
    assert TrimLeft(s) == s;
  }

  /** The same text with a newline after it trims to the text. */
  lemma TrimSpaceNewline(s: string)
    requires |s| > 0 && !IsSpace(s[0]) && !IsSpace(s[|s| - 1])
    ensures TrimSpace(s + ['\n']) == s
  {
    var t := s + ['\n'];
    TrimLeftKeeps(t);
    TrimRightDrops(t, s);
  }

  lemma TrimLeftKeeps(t: string)
    requires |t| > 0 && !IsSpace(t[0])
    ensures TrimLeft(t) == t
  {
  }

  lemma TrimRightDrops(t: string, s: string)
    requires |s| > 0 && !IsSpace(s[|s| - 1])
    requires t == s + ['\n']
    ensures TrimRight(t) == s
  {
    assert t[..|t| - 1] == s;
    assert IsSpace(t[|t| - 1]);
  }

  // ---------------------------------------------------------------------
  // Fields

  predicate NoSpace(s: string) {
    forall k :: 0 <= k < |s| ==> !IsSpace(s[k])
  }

  /** The maximal run of non-space characters at the front of `s`. */
  function TakeWord(s: string): (w: string)
    ensures w <= s && NoSpace(w)
    ensures |w| < |s| ==> IsSpace(s[|w|])
    decreases |s|
  {
    if |s| == 0 || IsSpace(s[0]) then []
    else
      var w := TakeWord(s[1..]);
      assert ([s[0]] + w)[1..] == w;
      [s[0]] + w
  }

  /** Go's strings.Fields: the non-empty maximal runs of non-space
      characters, in order. */
  function Fields(s: string): (fs: seq<string>)
    ensures forall k :: 0 <= k < |fs| ==> |fs[k]| > 0 && NoSpace(fs[k])
    ensures |fs| == 0 <==> AllSpace(s)
    decreases |s|
  {
    var t := TrimLeft(s);
    if |t| == 0 then
      assert s[..|s| - |t|] == s;
      []
    else
      var w := TakeWord(t);
      assert |w| > 0 by { assert !IsSpace(t[0]); }
      var rest := Fields(t[|w|..]);
      assert !AllSpace(s) by { assert s[|s| - |t|] == t[0]; }
      ConsPieces(w, rest);
      [w] + rest
  }

  lemma ConsPieces(w: string, rest: seq<string>)
    requires |w| > 0 && NoSpace(w)
    requires forall k :: 0 <= k < |rest| ==> |rest[k]| > 0 && NoSpace(rest[k])
    ensures forall k :: 0 <= k < |[w] + rest| ==> |([w] + rest)[k]| > 0 && NoSpace(([w] + rest)[k])
  {
    var fs := [w] + rest;
    forall k | 0 <= k < |fs| ensures |fs[k]| > 0 && NoSpace(fs[k]) {
      if k > 0 { assert fs[k] == rest[k - 1]; }
    }
  }

  /** The first field of a string that starts (after white space) with the
      word `w` followed by the end or by white space is `w`. */
  lemma {:induction false} FirstField(pre: string, w: string, post: string)
    requires AllSpace(pre) && |w| > 0 && NoSpace(w)
    requires |post| == 0 || IsSpace(post[0])
    ensures |Fields(pre + w + post)| > 0 && Fields(pre + w + post)[0] == w
    decreases |pre|
  {
    var s := pre + w + post;
    TrimLeftOfSpacePrefix(pre, w + post);
    assert s == pre + (w + post);
    var t := TrimLeft(s);
    assert t == w + post;
    TakeWordOf(w, post);
  }

  lemma {:induction false} TrimLeftOfSpacePrefix(pre: string, s: string)
    requires AllSpace(pre)
    requires |s| > 0 && !IsSpace(s[0])
    ensures TrimLeft(pre + s) == s
    decreases |pre|
  {
    if |pre| > 0 {
      assert (pre + s)[1..] == pre[1..] + s;
      TrimLeftOfSpacePrefix(pre[1..], s);
    } else {
      assert pre + s == s;
    }
  }

  lemma {:induction false} TakeWordOf(w: string, post: string)
    requires NoSpace(w)
    requires |post| == 0 || IsSpace(post[0])
    ensures TakeWord(w + post) == w
    decreases |w|
  {
    if |w| > 0 {
      assert (w + post)[1..] == w[1..] + post;
      TakeWordOf(w[1..], post);
    } else {
      assert w + post == post;
    }
  }

  // ---------------------------------------------------------------------
  // Building text

  /** Go's strings.Repeat: `n` copies of `s`, one after the other, so the
      character at `k` is the one at `k` reduced modulo `|s|` in `s`. */
  function Repeat(s: string, n: nat): (r: string)
    ensures |r| == n * |s|
    ensures Utf8Len(r) == n * Utf8Len(s)
    ensures |s| > 0 ==> forall k :: 0 <= k < |r| ==> r[k] == s[Wrap(k, |s|)]
    ensures |s| == 1 ==> forall k :: 0 <= k < |r| ==> r[k] == s[0]
  {
    if n == 0 then ""
    else
      var rest := Repeat(s, n - 1);
      Utf8LenAppend(s, rest);
      if |s| > 0 then RepeatCons(s, rest); s + rest else s + rest
  }

  /** `k` reduced modulo `m` by repeated subtraction. */
  function Wrap(k: nat, m: nat): (r: nat)
    requires m > 0
    ensures r < m && (k < m ==> r == k)
  {
    if k < m then k else Wrap(k - m, m)
  }

  /** One more copy in front keeps every character in its place. */
  lemma RepeatCons(s: string, rest: string)
    requires |s| > 0
    requires forall k :: 0 <= k < |rest| ==> rest[k] == s[Wrap(k, |s|)]
    ensures forall k :: 0 <= k < |s + rest| ==> (s + rest)[k] == s[Wrap(k, |s|)]
  {
    var r := s + rest;
    forall k | 0 <= k < |r| ensures r[k] == s[Wrap(k, |s|)] {
      if k >= |s| {
        assert r[k] == rest[k - |s|];
      }
    }
  }

  /** The text written by printing each element followed by a newline. */
  function Unlines(lines: seq<string>): string
    decreases |lines|
  {
    if |lines| == 0 then "" else Unlines(lines[..|lines| - 1]) + lines[|lines| - 1] + "\n"
  }

  lemma {:induction false} UnlinesAppend(a: seq<string>, b: seq<string>)
    ensures Unlines(a + b) == Unlines(a) + Unlines(b)
    decreases |b|
  {
    if |b| == 0 {
      assert a + b == a;
    } else {
      assert (a + b)[..|a + b| - 1] == a + b[..|b| - 1];
      UnlinesAppend(a, b[..|b| - 1]);
    }
  }

  /** Whatever one line contains, the text of all the lines contains. */
  lemma {:induction false} UnlinesContains(lines: seq<string>, k: nat, sub: string)
    requires k < |lines| && Contains(lines[k], sub)
    ensures Contains(Unlines(lines), sub)
    decreases |lines|
  {
    var init, last := lines[..|lines| - 1], lines[|lines| - 1];
    if k == |lines| - 1 {
      ContainsInConcat(Unlines(init), last, "\n", sub);
    } else {
      assert init[k] == lines[k];
      UnlinesContains(init, k, sub);
      ContainsInConcat([], Unlines(init), last + "\n", sub);
      assert [] + Unlines(init) + (last + "\n") == Unlines(lines);
    }
  }

  /** Every line, with the newline written after it, is in the text. */
  lemma {:induction false} UnlinesHasLine(lines: seq<string>, k: nat)
    requires k < |lines|
    ensures Contains(Unlines(lines), lines[k] + "\n")
    decreases |lines|
  {
    var init, last := lines[..|lines| - 1], lines[|lines| - 1];
    if k == |lines| - 1 {
      ContainsSelf(last + "\n");
      ContainsInConcat(Unlines(init), last + "\n", [], last + "\n");
      assert Unlines(init) + (last + "\n") + [] == Unlines(lines);
    } else {
      assert init[k] == lines[k];
      UnlinesHasLine(init, k);
      ContainsInConcat([], Unlines(init), last + "\n", lines[k] + "\n");
      assert [] + Unlines(init) + (last + "\n") == Unlines(lines);
    }
  }

  /** The text of two or more lines starts with the first two. */
  lemma UnlinesStart(lines: seq<string>)
    requires |lines| >= 2
    ensures HasPrefix(Unlines(lines), lines[0] + "\n" + lines[1] + "\n")
  {
    var head := lines[..2];
    assert lines == head + lines[2..];
    assert head == [lines[0], lines[1]];
    UnlinesAppend(head, lines[2..]);
    UnlinesTwo(lines[0], lines[1]);
  }

  lemma UnlinesTwo(a: string, b: string)
    ensures Unlines([a, b]) == a + "\n" + b + "\n"
  {
    assert [a, b][..1] == [a];
    assert [a][..0] == [];
    calc {
      Unlines([a, b]);
      Unlines([a]) + b + "\n";
      ("" + a + "\n") + b + "\n";
      { assert "" + a == a; }
      a + "\n" + b + "\n";
    }
  }
}

=== FILE: Wrappers.dfy ===
/** Failure-carrying datatypes shared by the other modules: an optional value
    and a value-or-error result, standing in for Go's `nil` pointers and its
    `(value, error)` return pairs. */
module Wrappers {

  datatype Option<+T> = None | Some(value: T) {

    /** The wrapped value, or `default` when there is none. */
    function GetOr(default: T): T {
      match this
      case Some(v) => v
      case None => default
    }
  }

  datatype Result<+R, +E> = Success(value: R) | Failure(error: E) {

    predicate IsFailure() {
      Failure?
    }

    function PropagateFailure<U>(): Result<U, E>
      requires Failure?
    {
      Failure(error)
    }

    function Extract(): R
      requires Success?
    {
      value
    }
  }
}
